=== FILE: README.md ===
# Projectile, modelled in Dafny

Projectile is a Blender add-on. It launches rigid-body "instances" from
"emitter" objects. Each emitter carries `projectile_props`:
- a launch velocity, in Cartesian or spherical form, with spin;
- a frame range and an instance count;
- a lifetime;
- a dirty flag.

Its operators turn these settings into a schedule: instances are spawned on
evenly spaced frames and retired after their lifetime. Retired instances go
into a pool and are reused. A draw handler previews the predicted paths
of all emitters or only of the selected ones, depending on the
`draw_trajectories` setting, and draws nothing when it is "none". The path is a kinematic arc that is cut off where a ray
cast hits a foreign object.

The model covers:
- the kinematics of `projectile/utils.py`, where trigonometry and square
  roots are an uninterpreted `Trig` record;
- the trajectory predictor and its draw concatenation, where the scene's ray
  cast is an oracle `Ray -> CastResult`;
- the property bag with its hard minimums and the enum tables of
  `props.py`;
- the update hooks of `props.py` and `utils.py`: the `FROM_UI` re-entrancy
  guard, the velocity/spherical conversions and `props_dirty`. The Python
  call depth is an explicit `depth` argument, and running out of it is
  `RecursionError`;
- the spawn/retire state machine of `PHYSICS_OT_projectile_execute`, with
  its instance pool;
- `execute_all` and its poll;
- `get_object_collection`;
- the instance helpers `initialize`, `set_active` and
  `get_emitter_velocity`;
- `set_quality`;
- the draw-handler singleton of `ui.py` and `toggle_trajectory_drawing`;
- `ui_prop_change_handler`, which redraws and then marks every emitter dirty.

Modules:
- `Wrappers` holds `Option` and `Result`.
- `Vectors` holds `Vec3`.
- `Kinematics`.
- `CustomProps` holds `get_attr` and `is_emitter_instance`.
- `Props`.
- `Scenes` holds the objects, the active object and the current frame.
- `Instances`.
- `Scheduler` holds the instance-pool state machine.
- `Trajectory`.
- `Solver`.
- `Updates` holds the property update hooks.
- `Operators` holds `execute`, `execute_all` and `get_object_collection`.
- `DrawHandler`.
- `ChangeHandler` holds `ui_prop_change_handler`.

**Number of trajectory points.** `calculate_trajectory` appends every
accepted point twice, so that consecutive points form `LINES` segments. The
model follows the code:
- a path cut at frame `k` has `2k` points: the seed, the doubled points of
  frames 1 to `k-1`, and the hit location;
- a path that is never cut has `2·frame_end` points;
- it has `2·frame_end - 1` points when the last cast hits one of the
  emitter's own instances.

## Model

| member | source | states |
|---|---|---|
| Kinematics.Displacement | projectile/utils.py:97-113 | At time 0 the position is the initial one. Without gravity it is the initial position plus velocity times `time / fps`. |
| Kinematics.DisplacementSecondDifference | projectile/utils.py:97-113 | The second difference of positions over consecutive frames is the constant `gravity / fps²` when gravity is used, and zero otherwise. So the arc is a parabola. |
| Kinematics.OneSecondUpAndBack | projectile/utils.py:97-113 | At 24 fps, launching at 10 up under gravity -10 puts the object 5 up after 24 frames. |
| Kinematics.Rotation | projectile/utils.py:116-126 | At time 0 the rotation is the initial one. |
| Kinematics.RotationIsGravityFreeDisplacement | projectile/utils.py:116-126 | Rotation is the gravity-free displacement of the angular velocity: initial plus `w` times `time / fps`. |
| Kinematics.SphericalToCartesian | projectile/utils.py:129-136 | A zero radius gives the zero vector, whatever the angles. |
| Kinematics.CartesianToSpherical | projectile/utils.py:139-150 | The radius is the vector's length. A zero vector gets incline 0 instead of dividing by zero. `x == 0` gets azimuth 0 instead of dividing by zero. |
| Kinematics.ZeroVelocitySpherical | projectile/utils.py:129-150 | The zero velocity converts to (0,0,0) and back to zero. |
| Kinematics.VerticalRoundTrip | projectile/utils.py:129-150 | A straight-up velocity converts to (z,0,0) and back to itself, given only the trig values the conversion evaluates. |
| Kinematics.AzimuthFallbackLosesY | projectile/utils.py:139-150 | With `x == 0` and `y != 0`, the azimuth fallback makes the round trip lose `y`. |
| Kinematics.NegativeXIsMirrored | projectile/utils.py:129-150 | The single-argument `atan` of `y / x` keeps the azimuth's cosine positive, so the way back always gives `x >= 0`. No velocity with `x < 0` survives the round trip. |
| CustomProps.GetAttr | projectile/utils.py:153-156 | `get_attr` reads a custom property, falling back to a default. What a caller gets is stated by `CustomProps.GetAttrAfterStore`: a stored key reads back as stored, whatever the default, and a store leaves every other key's reading unchanged. |
| CustomProps.GetAttrAfterStore | projectile/utils.py:153-156 | A key read right after it was stored yields the stored value, whatever the default. Storing under one key leaves the reading of every other key as it was. |
| CustomProps.IsEmitterInstance | projectile/utils.py:159-163 | True exactly when the object's custom properties hold an `emitter` entry and it is this emitter. |
| CustomProps.TaggedInstance | projectile/ops.py:256-263 | Tagging an instance with its emitter, as `create_instance` does, makes it an instance of that emitter and of no other. Storing any other key does not change whose instance it is. |
| Props.DefaultsWithinBounds | props.py:82-213 | The defaults respect every hard minimum: start 1, end 50, one instance, lifetime 0, not an emitter, not dirty. |
| Props.ClampMin | props.py:94-153 | A value written through a property with a hard minimum is at least that minimum. It is kept if it already was, and raised to the minimum otherwise. |
| Props.Apply | props.py:82-213 | Writing one property keeps the custom properties, and keeps all hard minimums satisfied. |
| Props.ApplyReadsBack | props.py:82-213 | After a write, the written field reads back as the stored (clamped) value. Every other field reads as before. |
| Props.ApplyIdempotent | props.py:82-213 | Writing the same value twice is writing it once. |
| Props.BoundsOnAssignment | props.py:94-118 | Start and end frame are clamped to at least 1 and the lifetime to at least 0. `instance_count` has no hard minimum and is stored as given. |
| Props.TupleRoundTrip | props.py:24-34 | An enum item converts to its tuple and back to itself. |
| Props.EnumPropToPy | props.py:24-34 | One tuple per item, in order, each converting back to its item. |
| Props.DefaultSettingsAreItems | props.py:223-249 | The defaults "selected" and "very_low" are identifiers of their enums, spherical is on by default, and identifiers are pairwise distinct. |
| Scenes.ActiveObject | projectile/ops.py:251-254 | The scene's active object whenever it is an object of the scene. Nothing exactly when there is no active object or it lies outside the scene. |
| Scenes.SelectThenLookUp | projectile/ops.py:251-254 | Making an object active makes it the one found. Two scenes with the same active object and object count find the same object. |
| Scenes.EditObject | props.py:82-213 | An assignment changes only the target object, to the written props. Frame and active object are kept. |
| Instances.New | projectile/ops.py:150-158 | A new instance records its object and lifetime. |
| Instances.Initialize | projectile/ops.py:161-166 | The instance starts at the spawn frame and ends exactly `lifetime` frames later. |
| Instances.ReinitializeForgetsPreviousLife | projectile/ops.py:161-166 | Re-initialising a pooled instance depends only on the new frame. |
| Instances.EmitterVelocity | projectile/ops.py:235-244 | A resting emitter has zero velocity. Moving for one frame at the estimated velocity carries the earlier location to the later one. |
| Instances.LaunchVelocity | projectile/ops.py:235-244 | A resting emitter launches at the configured velocity. |
| Instances.MovingEmitterAddsItsMotion | projectile/ops.py:235-244 | An emitter that moved by `d` over the last frame adds `fps·d` to the launch velocity. |
| Instances.SetActive | projectile/ops.py:211-222 | Collision layer 0 is on and layer 19 off for an active instance, and the reverse for an inactive one. Kinematic is the negation of active. Layers 1 to 18 are unchanged. |
| Instances.SetActiveLastWriteWins | projectile/ops.py:211-222 | Setting the activity twice is setting it to the last value. |
| Scheduler.SpawnFrames | projectile/ops.py:286-300 | A zero spawn count is a division by zero. A negative count gives no frames. Otherwise there are `count` strictly increasing frames within `[start, end)`. |
| Scheduler.Execute | projectile/ops.py:286-329 | The schedule fails exactly when the spawn count is zero. |
| Scheduler.ExecuteSpawnsEachFrameOnce | projectile/ops.py:302-329 | The spawn events are exactly the spawn frames, in order: one activation per spawn frame. |
| Scheduler.ExecuteRetiresFifo | projectile/ops.py:302-329 | The j-th retirement retires the j-th spawned object exactly `lifetime` frames after it spawned, on strictly increasing frames. A spawn is retired if and only if the lifetime is positive and its end frame is within the range. |
| Scheduler.ExecuteWithoutLifetime | projectile/ops.py:302-329 | Without a lifetime nothing retires, the pool stays empty and every spawn creates a new object. |
| Scheduler.ExecuteNoObjectTwice | projectile/ops.py:302-329 | Live and pooled objects are pairwise distinct, and together they are exactly the objects created. |
| Scheduler.SpawnBeforeRetire | projectile/ops.py:302-329 | In one frame the spawn runs before the retirement. The spawn reuses from the pool only if it was non-empty before the frame, and the retired object differs from the spawned one and lands at the pool's end. |
| Scheduler.SameFrameRetireIsNotReused | projectile/ops.py:286-329 | A worked schedule (frames 1 to 3, two instances, lifetime 1) with its exact trace, where the object retiring on frame 2 is not reused by the spawn on frame 2. |
| Scheduler.ExecuteReusesLastPooled | projectile/ops.py:302-329 | The pool is a stack. A spawn reuses an object exactly when the pool is non-empty, and then reuses the one retired most recently (`pool.pop()` after `pool.append`). The pool is always the retired objects not yet reused, in retirement order. |
| Trajectory.FirstStop | projectile/utils.py:175-196 | The first frame whose cast hits an object that is not one of the emitter's instances. No earlier frame stops, and None means none stops. |
| Trajectory.Predict | projectile/utils.py:165-198 | The prediction fails (the `IndexError` on the empty cast list) exactly when `frame_end <= 1`. |
| Trajectory.CalculateTrajectory | projectile/utils.py:165-198 | The loop's result is the prediction. It casts exactly one ray per frame up to the stop, the i-th from frame i to i+1, each bounded by its segment's length. On success each ray starts at the last accepted point. |
| Trajectory.BlockedPath | projectile/utils.py:175-196 | A path stopped at frame `k` has `k` casts, and is the seed, the doubled points of frames 1 to k-1 and the hit location. |
| Trajectory.CompletedPath | projectile/utils.py:175-198 | An unobstructed path has `frame_end - 1` casts and ends with the final point, unless the last cast hits an own instance. |
| Trajectory.PredictLength | projectile/utils.py:165-198 | The point count is `2k` when stopped at `k`, `2·frame_end` when the last cast is free, and `2·frame_end - 1` when it hits an own instance. |
| Trajectory.PredictShape | projectile/utils.py:165-198 | The path starts at the emitter. Its points up to the stop are the kinematic points, each twice. It ends at the hit location or the final point. |
| Trajectory.PathCastsFromLastPoint | projectile/utils.py:175-196 | Every ray cast starts at the point the path accepted last. |
| Trajectory.OwnInstancesNeverTruncate | projectile/utils.py:185-190 | Hits on the emitter's own instances never cut the path short. |
| Trajectory.UnobstructedStraightLine | projectile/utils.py:165-198 | Without gravity or hits, the path is the straight line at the points `i/fps` of the velocity, each point twice. |
| Trajectory.DrawCoordinates | projectile/utils.py:203-226 | Drawing fails exactly when there is an emitter and `frame_end <= 1`. Otherwise the coordinates are the emitters' predicted paths concatenated in the emitters' order, none without emitters, and at least two per emitter. |
| Trajectory.Paths | projectile/utils.py:216-218 | One path per emitter, in order, each the emitter's prediction. |
| Trajectory.DrawnPathLengths | projectile/utils.py:216-218 | Every emitter's path in the draw has at least two points. |
| Solver.FactorsFollowQualityItems | projectile/utils.py:269-282 | Exactly the quality identifiers have a substep factor, and the factor grows strictly in the enum's order. |
| Solver.SetQuality | projectile/utils.py:269-282 | Solver iterations become 20. Substeps become fps times 1, 4, 10 or 20 for very_low, low, medium and high, and are unchanged for any other value. |
| Solver.SetQualityIdempotent | projectile/utils.py:269-282 | Setting the quality twice is setting it once. For a known quality the result ignores the previous settings. |
| Solver.HigherQualityMoreSubsteps | projectile/utils.py:269-282 | At a positive frame rate a higher quality takes strictly more substeps. |
| Updates.Hooks | props.py:77-213 | Every property except `is_emitter` and `is_dirty` has hooks, and `props_dirty` is the last of them. |
| Updates.HookRoles | props.py:77-213 | `props_dirty` runs only last. Only `v` runs the velocity conversion, and only radius, incline and azimuth run the spherical one. |
| Updates.MarkDirty | props.py:72-75 | Only the active object changes, and only its dirty flag, which becomes set. Without an active object nothing changes. |
| Updates.MarkDirtyIdempotent | props.py:72-75 | Marking dirty twice is marking once. |
| Updates.Assign | props.py:77-79 | An assignment that returns, with all its hooks, keeps the object count, the active object and the frame. What it changes is in `Updates.AssignTouches`. |
| Updates.RunHooks | props.py:77-79 | `call_multiple_functions` that returns keeps the object count, the active object and the frame. |
| Updates.RunCallback | projectile/utils.py:232-267 | An update callback that returns keeps the object count, the active object and the frame. |
| Updates.AssignTouches | props.py:77-79 | An assignment with all its hooks touches only the target and the active object. Object count, active object and frame are kept. |
| Updates.RunHooksAppend | props.py:77-79 | Running `a + b` runs `a`, then `b` on its result, and stops at the first error. |
| Updates.GuardSwallowsCallback | projectile/utils.py:232-267 | While `FROM_UI` is set, a conversion callback only clears the guard. |
| Updates.FirstEditAfterLoadIsSwallowed | projectile/utils.py:229-267 | Since `FROM_UI` starts out True, the first velocity or spherical edit after the add-on is loaded (the module is imported) skips its conversion. It still stores the value, marks dirty and clears the guard. |
| Updates.CallbackReturns | projectile/utils.py:232-267 | A callback with call depth left always returns: the guard stops the re-entrant hooks its own writes trigger. |
| Updates.HooksReturn | props.py:77-79 | A hook list with call depth left always returns. |
| Updates.AssignNeverRecursesDeeply | projectile/utils.py:232-267 | Any assignment returns with two levels of call depth, so there is no `RecursionError`. |
| Updates.DirtyAfterEveryEdit | props.py:72-79 | After any hooked edit that returns, the active object is dirty. |
| Updates.VelocityCallbackConverts | projectile/utils.py:232-249 | The velocity callback writes the radius, incline and azimuth converted from `v`, marks the emitter dirty and leaves the guard cleared. |
| Updates.SphericalCallbackConverts | projectile/utils.py:252-267 | The spherical callback writes `v` converted from radius, incline and azimuth, marks dirty and leaves the guard cleared. |
| Updates.VelocityEditUpdatesSpherical | projectile/utils.py:232-249 | Editing `v` of the active emitter stores `v`, its spherical form and the dirty flag. |
| Updates.SphericalEditUpdatesVelocity | projectile/utils.py:252-267 | Editing radius, incline or azimuth stores the edit and the velocity converted from the new spherical values. |
| Operators.Execute | projectile/ops.py:251-340 | The poll fails exactly without an active emitter. A division by zero means an unschedulable emitter. Success keeps the scene's shape, resets the frame to 0, clears only the emitter's dirty flag and returns the emitter's schedule. |
| Operators.DirtyFrom | projectile/ops.py:348-356 | The dirty emitters from index i, strictly increasing, and all of them. |
| Operators.ExecuteAllFrom | projectile/ops.py:348-356 | The loop from index i keeps the object count, both on success and in the partial scene a failure leaves. |
| Operators.ExecuteAllFromFails | projectile/ops.py:348-356 | `execute_all` from index i succeeds exactly when every dirty emitter from there on is schedulable. |
| Operators.ExecuteAllFromResult | projectile/ops.py:348-356 | The emitters executed are exactly the dirty ones, in order. Earlier objects are unchanged, and later ones lose only the dirty flag of dirty emitters. |
| Operators.ExecuteAllLeavesLastActive | projectile/ops.py:348-356 | After executing at least one emitter, the frame is 0 and the last emitter executed is the active object. |
| Operators.ExecuteAllFromAborts | projectile/ops.py:277-356 | A failing loop fails at the first unschedulable dirty emitter, with a division by zero. The earlier dirty emitters stay executed, it and every later object are unchanged, it is the active object, and the frame is 0 if an emitter ran before it. |
| Operators.ExecuteAll | projectile/ops.py:348-356 | `execute_all` keeps the object count. A failure is a division by zero, and leaves the failing emitter active. |
| Operators.ExecuteAllRunsDirtyEmitters | projectile/ops.py:348-356 | The whole-scene version: success exactly when every dirty emitter is schedulable, with exactly the dirty emitters run and cleared. A failure leaves the partial scene of `Operators.ExecuteAllFromAborts`. |
| Operators.ExecuteAllPoll | ui.py:54-59 | The poll succeeds if and only if some emitter is dirty. |
| Operators.PollMatchesExecuteAll | ui.py:54-59 | When the poll fails, running `execute_all` would change nothing. |
| Operators.FirstLinking | projectile/ops.py:25-32 | The first collection, in order, that links the object. |
| Operators.GetObjectCollectionAsWritten | projectile/ops.py:25-32 | The code as written: the first linking data collection. Otherwise the scene collection when the object's name is among its custom property keys. Otherwise none. Each case holds if and only if its condition does. |
| Operators.GetObjectCollection | projectile/ops.py:25-32 | The corrected version of `Operators.GetObjectCollectionAsWritten`: the first linking data collection. Otherwise the scene collection when the object is linked there. Otherwise none. Each case holds if and only if its condition does. |
| Operators.AsWrittenDiffersOnlyInFallback | projectile/ops.py:25-32 | The code as written and the corrected one agree whenever a data collection links the object. |
| Operators.ObjectOnlyInSceneCollectionIsMissed | projectile/ops.py:30 | An object linked only to the scene collection is not found by the code as written. |
| DrawHandler.AddHandler | ui.py:34-41 | Registers a new callback only when no handle is held. |
| DrawHandler.RemoveHandler | ui.py:43-48 | Unregisters the held handle, if any, and always clears `_handle`. |
| DrawHandler.AddRemoveIdempotent | ui.py:32-48 | A second add and a second remove are no-ops. |
| DrawHandler.Toggle | projectile/utils.py:28-32 | A handler is held if and only if the mode is "all" or "selected". |
| DrawHandler.ToggleIdempotent | projectile/utils.py:28-32 | Toggling twice with one mode is toggling once. |
| DrawHandler.RunKeepsValid | ui.py:32-48 | Any sequence of adds, removes and toggles keeps `_handle` and the host in agreement, with at most one callback registered. |
| DrawHandler.AtMostOneHandler | ui.py:32-48 | From load on, at most one draw callback is registered, and none exactly when `_handle` is None. |
| DrawHandler.DrawnEmitters | projectile/utils.py:208-212 | With "all", exactly the emitters are drawn, in the scene's object order. Otherwise exactly the selected emitters are drawn, in selection order: any two drawn emitters occur in the selection in the order they are drawn. |
| DrawHandler.RedrawsOnChangeAsWritten | projectile/utils.py:36 | The test as written holds for every identifier of the `draw_trajectories` enum, and whenever the corrected test does. |
| DrawHandler.RedrawsOnChange | projectile/utils.py:35-47 | The corrected version of `DrawHandler.RedrawsOnChangeAsWritten`: it holds exactly when the toggle keeps a draw handler. |
| DrawHandler.NoneModeStillRedraws | projectile/utils.py:36 | The test as written is true for every mode including "none", where the corrected one is false. For "all" and "selected" the two agree. |
| ChangeHandler.MarkEmittersDirty | projectile/utils.py:44-47 | Afterwards the dirty emitters are exactly the emitters. Only dirty flags change, and only those of emitters. The active object and the frame are kept. |
| ChangeHandler.SettingChangeDirtiesAllEmitters | projectile/utils.py:44-47 | After the marking the dirty emitters are exactly the emitters, marking again changes nothing, and a successful `execute_all` runs exactly the emitters. |
| ChangeHandler.Drawn | projectile/utils.py:208-212 | One predictor emitter per drawn object, and some exactly when an object is drawn. |
| ChangeHandler.Handle | projectile/utils.py:35-47 | The handler fails exactly when it redraws, something is drawn and `frame_end <= 1`. The draw's `IndexError` then skips the marking. Otherwise the result is the marked scene. |
| ChangeHandler.PropChangeHandlerAsWritten | projectile/utils.py:35-47 | The handler as written fails, and marks nothing, exactly when the mode is any identifier, some emitter is drawn and `frame_end <= 1`. Otherwise it marks every emitter dirty. |
| ChangeHandler.PropChangeHandler | projectile/utils.py:35-47 | The corrected handler fails exactly when trajectories are shown ("all" or "selected"), some emitter is drawn and `frame_end <= 1`. Otherwise it marks every emitter dirty. |
| ChangeHandler.HandlersAgreeWhenShown | projectile/utils.py:35-47 | Where the corrected handler fails, the one as written fails too. With trajectories shown, the two are the same. |
| ChangeHandler.NoneModeSkipsMarking | projectile/utils.py:36-47 | With trajectories off, a selected emitter and a scene ending on frame 1, the handler as written raises and leaves the emitter clean, where the corrected one marks it dirty. |

## Left out

- Blender registration, class registration, the message bus, the panels and the load handler are host plumbing. They are left out except as the call sequences `DrawHandler.Run` accepts.
- The add/remove emitter operators and the creation of collections, objects and instance copies are left out because they only mutate host data. An instance is an object index, and `Scheduler` counts the objects created.
- Keyframe insertion, `Instance.activate/deactivate/execute/set_visible`, `change_frame` and `frame_set` are left out because they drive the host's timeline. The scheduler records the corresponding spawn and retire events instead.
- GPU batch creation and drawing are host rendering. `Trajectory.DrawCoordinates` models only the coordinate list handed to the batch.
- Floating point is modelled as exact reals. `math.sin/cos/acos/atan/sqrt` are uninterpreted parameters. The spherical round trip holds at most for `x > 0`, and that general case is not proved, only special cases. For `x < 0` it fails: the single-argument `atan` makes the way back give `x >= 0` (`Kinematics.NegativeXIsMirrored`).
- Scheduler.SpawnFrames: uses exact integer floor division `start + i·frames / count` instead of Python's float `int(i * step)`. The two can differ by one frame on some ranges.
- Kinematics.TimeStep: requires `fps >= 1`. The host never reports a lower frame rate.
- Updates.Assign: the Python interpreter's recursion limit is an explicit `depth`, and running out of it is `RecursionError`. The actual limit value is not modelled.
- `scene.objects`, `view_layer.objects` and `bpy.data.objects` are modelled as one list.
- Operators.Execute: assumes every emitter has its instance object and collection. The re-selection of the emitter at the end of `execute` (ops.py:334) is left out. It undoes `create_instance` making each new instance the active object (ops.py:265), and object creation is left out too, so in the model the emitter stays active throughout.
- That writes to different properties commute is not stated as a lemma of its own; `Props.ApplyReadsBack` gives it field by field.
- Trajectory.DrawCoordinates: one emitter whose prediction fails aborts the whole draw, as the raised exception does; nothing is handed to the GPU batch then.
- Integer properties (`frame_start`, `frame_end`, `instance_count`, `lifetime`) and the frame numbers are unbounded `int`, in the property writes and in the update hooks alike. Blender stores an `IntProperty` as a 32-bit integer, so values beyond that range are not modelled.

## Findings

| source | as written | input that shows it | evidently intended | confidence | as-written member | corrected member |
|---|---|---|---|---|---|---|
| projectile/ops.py:30 | The fallback after the search of `bpy.data.collections` looks the object up in the scene collection's custom properties, not in its linked objects | An object "Cube" linked only to the scene's master collection, with no data collection linking it | Return the scene collection when the object is linked to it | medium; not executed | Operators.ObjectOnlyInSceneCollectionIsMissed | Operators.GetObjectCollection |
| projectile/utils.py:36 | `if draw_trajectories:` tests the truth of the enum identifier string, which is always non-empty, so the handler redraws with trajectories off; when the scene ends on frame 1 the redraw raises and the emitters are never marked dirty | The `draw_trajectories` setting "none", a selected emitter and `frame_end` 1 | Redraw only when trajectories are shown ("all" or "selected"), the condition `toggle_trajectory_drawing` uses | low; not executed | ChangeHandler.NoneModeSkipsMarking | ChangeHandler.PropChangeHandler |

=== FILE: change_handler.dfy ===
/** `ui_prop_change_handler` of `projectile/utils.py`, run when a scene
    setting such as gravity or the frame rate changes: it first redraws the
    trajectories when its test on the `draw_trajectories` setting holds, then
    marks every emitter of the view layer dirty. An exception raised by the
    redraw (`draw_trajectory` reads `cast[0]` of an empty list when the scene
    ends on frame 1 or earlier) leaves the handler before the marking. The
    emitters' locations are host data and are a parameter. */
module ChangeHandler {
  import opened Wrappers
  import opened Vectors
  import opened CustomProps
  import opened Props
  import opened Scenes
  import Kinematics
  import Trajectory
  import DrawHandler
  import Operators

  /** The marking loop: afterwards the dirty emitters are exactly the
      emitters; only dirty flags change, and only those of emitters; the rest
      of the scene is left alone. */
  function MarkEmittersDirty(s: Scene): (r: Scene)
    ensures |r.objects| == |s.objects| && r.active == s.active && r.frameCurrent == s.frameCurrent
    ensures forall j :: 0 <= j < |r.objects| ==> (DirtyEmitter(r, j) <==> s.objects[j].isEmitter)
    ensures forall j :: 0 <= j < |r.objects| ==> r.objects[j].(isDirty := s.objects[j].isDirty) == s.objects[j]
    ensures forall j :: 0 <= j < |r.objects| && !s.objects[j].isEmitter ==> r.objects[j] == s.objects[j]
  {
    s.(objects := seq(|s.objects|, j requires 0 <= j < |s.objects| =>
      if s.objects[j].isEmitter then s.objects[j].(isDirty := true) else s.objects[j]))
  }

  /** After the marking every emitter is due for re-execution: the dirty
      emitters are exactly the emitters, marking again changes nothing, and a
      following `execute_all` that succeeds runs exactly the emitters. */
  lemma SettingChangeDirtiesAllEmitters(s: Scene)
    ensures var t := MarkEmittersDirty(s);
            forall j :: 0 <= j < |t.objects| ==> (DirtyEmitter(t, j) <==> s.objects[j].isEmitter)
    ensures MarkEmittersDirty(MarkEmittersDirty(s)) == MarkEmittersDirty(s)
    ensures var t := MarkEmittersDirty(s);
            Operators.ExecuteAll(t).Ok? ==>
              forall j :: 0 <= j < |s.objects| ==> (j in Operators.ExecuteAll(t).value.1 <==> s.objects[j].isEmitter)
  {
    Operators.ExecuteAllRunsDirtyEmitters(MarkEmittersDirty(s));
  }

  /** Object `o` as the predictor sees it: its location and its launch
      velocity `projectile_props.v`. */
  function EmitterOf(s: Scene, location: ObjectId -> Vec3, o: ObjectId): Trajectory.Emitter
    requires o < |s.objects|
  {
    Trajectory.Emitter(o, location(o), s.objects[o].v)
  }

  /** The emitters `draw_trajectory` predicts for `mode`, in its order. */
  function Drawn(s: Scene, mode: string, selected: seq<ObjectId>, location: ObjectId -> Vec3): (r: seq<Trajectory.Emitter>)
    ensures |r| == |DrawHandler.DrawnEmitters(mode, s.objects, selected)|
    ensures |r| > 0 <==> exists o: ObjectId :: o in DrawHandler.DrawnEmitters(mode, s.objects, selected)
  {
    var ids := DrawHandler.DrawnEmitters(mode, s.objects, selected);
    assert forall k :: 0 <= k < |ids| ==> ids[k] in ids;
    assert |ids| > 0 ==> ids[0] in ids;
    seq(|ids|, k requires 0 <= k < |ids| => EmitterOf(s, location, ids[k]))
  }

  /** The handler with the outcome `redraw` of its test: the redraw of
      `drawn`, then the marking. */
  function Handle(s: Scene, redraw: bool, drawn: seq<Trajectory.Emitter>, q: Trajectory.Query)
    : (r: Result<Scene, Trajectory.TrajectoryError>)
    requires Trajectory.ValidQuery(q)
    ensures r.Err? <==> redraw && |drawn| > 0 && q.frameEnd <= 1
    ensures r.Ok? ==> r.value == MarkEmittersDirty(s)
  {
    if redraw && Trajectory.DrawCoordinates(drawn, q).Err? then Err(Trajectory.IndexError)
    else Ok(MarkEmittersDirty(s))
  }

  /** `ui_prop_change_handler` as written: its test is the truth of the
      `draw_trajectories` identifier, so it redraws for every mode. */
  function PropChangeHandlerAsWritten(s: Scene, mode: string, selected: seq<ObjectId>,
                                      location: ObjectId -> Vec3, q: Trajectory.Query)
    : (r: Result<Scene, Trajectory.TrajectoryError>)
    requires Trajectory.ValidQuery(q)
    ensures r.Err? <==> |mode| > 0 && |Drawn(s, mode, selected, location)| > 0 && q.frameEnd <= 1
    ensures r.Ok? ==> r.value == MarkEmittersDirty(s)
  {
    Handle(s, DrawHandler.RedrawsOnChangeAsWritten(mode), Drawn(s, mode, selected, location), q)
  }

  /** `ui_prop_change_handler` with the test it stands for: redraw only while
      trajectories are shown. */
  function PropChangeHandler(s: Scene, mode: string, selected: seq<ObjectId>,
                             location: ObjectId -> Vec3, q: Trajectory.Query)
    : (r: Result<Scene, Trajectory.TrajectoryError>)
    requires Trajectory.ValidQuery(q)
    ensures r.Err? <==> mode in {"all", "selected"} && |Drawn(s, mode, selected, location)| > 0 && q.frameEnd <= 1
    ensures r.Ok? ==> r.value == MarkEmittersDirty(s)
  {
    Handle(s, DrawHandler.RedrawsOnChange(mode), Drawn(s, mode, selected, location), q)
  }

  /** The two handlers differ only in the redraw test: where the corrected
      one fails, the one as written fails too, and with trajectories shown
      they are the same. */
  lemma HandlersAgreeWhenShown(s: Scene, mode: string, selected: seq<ObjectId>,
                               location: ObjectId -> Vec3, q: Trajectory.Query)
    requires Trajectory.ValidQuery(q)
    ensures PropChangeHandler(s, mode, selected, location, q).Err? ==>
              PropChangeHandlerAsWritten(s, mode, selected, location, q).Err?
    ensures mode in {"all", "selected"} ==>
              PropChangeHandler(s, mode, selected, location, q) == PropChangeHandlerAsWritten(s, mode, selected, location, q)
  {
  }

  /** The consequence of the test as written: with trajectories switched
      off, a scene ending on frame 1 and a selected emitter, the handler
      still draws, raises, and leaves the emitter clean, where the corrected
      handler marks it dirty. */
  lemma NoneModeSkipsMarking()
    ensures var s := Scene([Defaults.(isEmitter := true)], None, 0);
            var q := Trajectory.Query(Kinematics.Physics(24, Zero, true), 1, x => x,
                                      ray => Trajectory.CastResult(false, Zero, map[]));
            && PropChangeHandlerAsWritten(s, "none", [0], o => Zero, q).Err?
            && PropChangeHandler(s, "none", [0], o => Zero, q).Ok?
            && PropChangeHandler(s, "none", [0], o => Zero, q).value.objects[0].isDirty
  {
    var s := Scene([Defaults.(isEmitter := true)], None, 0);
    assert 0 in DrawHandler.DrawnEmitters("none", s.objects, [0]);
  }
}

=== FILE: custom_props.dfy ===
/** Blender ID properties (the dictionary-style custom properties stored on a
    property group) as the add-on reads them: `get_attr` and
    `is_emitter_instance` of `projectile/utils.py`. */
module CustomProps {

  /** Host objects are identified by a number. */
  type ObjectId = nat

  /** The values the add-on stores as custom properties: the `emitter` back
      reference on an instance, and whatever else a user may have put there. */
  datatype PropValue = PBool(b: bool) | PInt(i: int) | PObject(id: ObjectId) | PNone

  type Bag = map<string, PropValue>

  /** Python truthiness of a stored value; object references are always true. */
  predicate Truthy(v: PropValue) {
    match v
    case PBool(b) => b
    case PInt(i) => i != 0
    case PObject(_) => true
    case PNone => false
  }

  /** `get_attr(ob, name, default)`: the stored value when the key is present,
      the default otherwise. */
  function GetAttr(bag: Bag, name: string, default: PropValue): (r: PropValue)
    ensures name in bag ==> r == bag[name]
    ensures name !in bag ==> r == default
  {
    if name in bag then bag[name] else default
  }

  /** `is_emitter_instance(emitter, ob)`: the `emitter` property, defaulting
      to `False`, must be truthy and equal to the emitter. Because a reference
      is always truthy this is exactly "the instance points back at this
      emitter". */
  predicate IsEmitterInstance(emitter: ObjectId, bag: Bag)
    ensures IsEmitterInstance(emitter, bag) <==> "emitter" in bag && bag["emitter"] == PObject(emitter)
  {
    var prop := GetAttr(bag, "emitter", PBool(false));
    if Truthy(prop) then prop == PObject(emitter) else false
  }

  /** Reading a key back after storing it yields the stored value; storing
      one key leaves what every other key reads unchanged. */
  lemma GetAttrAfterStore(bag: Bag, name: string, v: PropValue, other: string, default: PropValue)
    ensures GetAttr(bag[name := v], name, default) == v
    ensures other != name ==> GetAttr(bag[name := v], other, default) == GetAttr(bag, other, default)
  {
  }

  /** Tagging an instance with its emitter, as `create_instance` stores the
      back reference in `projectile_props["emitter"]`, makes it an instance of
      that emitter and of no other; keys other than "emitter" never matter. */
  lemma TaggedInstance(bag: Bag, e: ObjectId, other: ObjectId, key: string, v: PropValue)
    ensures IsEmitterInstance(e, bag["emitter" := PObject(e)])
    ensures other != e ==> !IsEmitterInstance(other, bag["emitter" := PObject(e)])
    ensures key != "emitter" ==> (IsEmitterInstance(e, bag[key := v]) <==> IsEmitterInstance(e, bag))
  {
  }
}

=== FILE: draw_handler.dfy ===
/** The trajectory draw handler of `ui.py` and the code in
    `projectile/utils.py` that switches it: `PHYSICS_OT_projectle_draw`
    keeps the handle returned by `SpaceView3D.draw_handler_add` in the class
    attribute `_handle`, so that at most one draw callback is registered;
    `toggle_trajectory_drawing` adds or removes it after the
    `draw_trajectories` setting; `draw_trajectory` picks the emitters whose
    paths are drawn; `ui_prop_change_handler` redraws on a scene change. */
module DrawHandler {
  import opened Wrappers
  import opened CustomProps
  import opened Props

  /** `handle` is `_handle`; `registered` the handles the host's 3D view
      holds; `next` the handle the host gives out on the next
      `draw_handler_add` (handles are never reused). */
  datatype Handler = Handler(handle: Option<nat>, registered: set<nat>, next: nat)

  /** After the add-on is loaded: `_handle = None`, nothing registered. */
  const Initial := Handler(None, {}, 0)

  /** The class attribute and the host agree: a held handle is the one
      registered callback, and without a handle nothing is registered. */
  predicate Valid(h: Handler) {
    match h.handle
    case None => h.registered == {}
    case Some(x) => h.registered == {x} && x < h.next
  }

  /** `add_handler()`: registers `draw_trajectory` only when no handle is
      held. */
  function AddHandler(h: Handler): (r: Handler)
    ensures h.handle.Some? ==> r == h
    ensures h.handle.None? ==>
              r.handle == Some(h.next) && r.registered == h.registered + {h.next} && r.next == h.next + 1
  {
    if h.handle.None? then Handler(Some(h.next), h.registered + {h.next}, h.next + 1) else h
  }

  /** `remove_handler()`: unregisters the held handle, if any, and always
      leaves `_handle` as `None`. */
  function RemoveHandler(h: Handler): (r: Handler)
    ensures r.handle.None? && r.next == h.next
    ensures h.handle.Some? ==> r.registered == h.registered - {h.handle.value}
    ensures h.handle.None? ==> r.registered == h.registered
  {
    match h.handle
    case Some(x) => Handler(None, h.registered - {x}, h.next)
    case None => h.(handle := None)
  }

  /** A second `add_handler()` is a no-op, and so is a second
      `remove_handler()`. */
  lemma AddRemoveIdempotent(h: Handler)
    ensures AddHandler(AddHandler(h)) == AddHandler(h)
    ensures RemoveHandler(RemoveHandler(h)) == RemoveHandler(h)
  {
  }

  /** From a consistent state, adding registers exactly one callback and
      removing registers none; removing right after adding restores the
      host's registry. */
  lemma AddRemoveKeepValid(h: Handler)
    requires Valid(h)
    ensures Valid(AddHandler(h)) && |AddHandler(h).registered| == 1
    ensures Valid(RemoveHandler(h)) && RemoveHandler(h).registered == {}
    ensures h.handle.None? ==> RemoveHandler(AddHandler(h)).registered == h.registered
  {
  }

  /** `toggle_trajectory_drawing()`: a handler is wanted for the modes
      "all" and "selected", and not for any other value. */
  function Toggle(h: Handler, mode: string): (r: Handler)
    ensures r.handle.Some? <==> mode in {"all", "selected"}
  {
    if mode in {"all", "selected"} then AddHandler(h) else RemoveHandler(h)
  }

  /** Toggling twice with the same mode is toggling once. */
  lemma ToggleIdempotent(h: Handler, mode: string)
    ensures Toggle(Toggle(h, mode), mode) == Toggle(h, mode)
  {
  }

  /** The calls that reach the singleton: the two static methods, and the
      toggle run by the `draw_trajectories` update hook and on file load. */
  datatype Call = Add | Remove | ToggleFor(mode: string)

  function Run(h: Handler, calls: seq<Call>): Handler
    decreases |calls|
  {
    if |calls| == 0 then h
    else
      var h1 := match calls[0]
        case Add => AddHandler(h)
        case Remove => RemoveHandler(h)
        case ToggleFor(m) => Toggle(h, m);
      Run(h1, calls[1..])
  }

  /** Whatever sequence of calls follows a consistent state, the state stays
      consistent: at most one draw callback is registered, and it is the
      one `_handle` names. */
  lemma {:induction false} RunKeepsValid(h: Handler, calls: seq<Call>)
    requires Valid(h)
    ensures Valid(Run(h, calls))
    ensures |Run(h, calls).registered| <= 1
    decreases |calls|
  {
    if |calls| > 0 {
      AddRemoveKeepValid(h);
      var h1 := match calls[0]
        case Add => AddHandler(h)
        case Remove => RemoveHandler(h)
        case ToggleFor(m) => Toggle(h, m);
      RunKeepsValid(h1, calls[1..]);
    }
  }

  /** From load on, at most one draw callback is ever registered. */
  lemma AtMostOneHandler(calls: seq<Call>)
    ensures |Run(Initial, calls).registered| <= 1
    ensures Run(Initial, calls).registered == {} <==> Run(Initial, calls).handle.None?
  {
    RunKeepsValid(Initial, calls);
  }

  /** `draw_trajectory`'s choice of emitters: with "all", every emitter of
      `bpy.data.objects` in order; with any other mode, the selected
      objects (in selection order) that are emitters. */
  function DrawnEmitters(mode: string, objects: seq<ProjectileProps>, selected: seq<ObjectId>): (r: seq<ObjectId>)
    ensures mode == "all" ==>
              forall o: ObjectId :: o in r <==> o < |objects| && objects[o].isEmitter
    ensures mode != "all" ==>
              forall o: ObjectId :: o in r <==> o in selected && o < |objects| && objects[o].isEmitter
    ensures mode == "all" ==> forall k, l :: 0 <= k < l < |r| ==> r[k] < r[l]
    ensures mode != "all" ==> InOrderWithin(r, selected)
  {
    if mode == "all" then EmittersFrom(objects, 0)
    else SelectedEmitters(objects, selected)
  }

  function EmittersFrom(objects: seq<ProjectileProps>, i: nat): (r: seq<ObjectId>)
    requires i <= |objects|
    ensures forall o: ObjectId :: o in r <==> i <= o < |objects| && objects[o].isEmitter
    ensures forall k, l :: 0 <= k < l < |r| ==> r[k] < r[l]
    decreases |objects| - i
  {
    if i == |objects| then []
    else
      var rest := EmittersFrom(objects, i + 1);
      assert forall k :: 0 <= k < |rest| ==> rest[k] in rest;
      if objects[i].isEmitter then [i] + rest else rest
  }

  /** The selected emitters, in selection order: any two of them appear in
      `selected` in the same order as in the result. */
  function SelectedEmitters(objects: seq<ProjectileProps>, selected: seq<ObjectId>): (r: seq<ObjectId>)
    ensures forall o: ObjectId :: o in r <==> o in selected && o < |objects| && objects[o].isEmitter
    ensures |r| <= |selected|
    ensures InOrderWithin(r, selected)
  {
    if |selected| == 0 then []
    else
      var rest := SelectedEmitters(objects, selected[1..]);
      assert forall o: ObjectId :: o in selected <==> o == selected[0] || o in selected[1..];
      assert forall k :: 0 <= k < |rest| ==> rest[k] in selected[1..];
      OrderAfterHead(rest, selected);
      if selected[0] < |objects| && objects[selected[0]].isEmitter then [selected[0]] + rest else rest
  }

  /** Every two entries of `r` occur in `within` at increasing positions. */
  predicate InOrderWithin(r: seq<ObjectId>, within: seq<ObjectId>) {
    forall k, l :: 0 <= k < l < |r| ==> PairInOrder(r, within, k, l)
  }

  /** Entries `k` and `l` of `r` occur in `within` at increasing positions. */
  predicate PairInOrder(r: seq<ObjectId>, within: seq<ObjectId>, k: int, l: int)
    requires 0 <= k < l < |r|
  {
    exists i, j :: 0 <= i < j < |within| && within[i] == r[k] && within[j] == r[l]
  }

  /** The positions in `within` of two ordered entries of `r`. */
  lemma OrderedPair(r: seq<ObjectId>, within: seq<ObjectId>, k: int, l: int) returns (i: nat, j: nat)
    requires InOrderWithin(r, within) && 0 <= k < l < |r|
    ensures i < j < |within| && within[i] == r[k] && within[j] == r[l]
  {
    assert PairInOrder(r, within, k, l);
    i, j :| 0 <= i < j < |within| && within[i] == r[k] && within[j] == r[l];
  }

  /** An order kept within the tail of `sel` is kept within `sel`, and stays
      kept when `sel`'s head goes in front. */
  lemma OrderAfterHead(rest: seq<ObjectId>, sel: seq<ObjectId>)
    requires |sel| > 0 && InOrderWithin(rest, sel[1..])
    requires forall k :: 0 <= k < |rest| ==> rest[k] in sel[1..]
    ensures InOrderWithin(rest, sel)
    ensures InOrderWithin([sel[0]] + rest, sel)
  {
    var tail := sel[1..];
    forall k, l | 0 <= k < l < |rest|
      ensures PairInOrder(rest, sel, k, l)
    {
      var i', j' := OrderedPair(rest, tail, k, l);
      assert sel[i' + 1] == rest[k] && sel[j' + 1] == rest[l];
    }
    var r := [sel[0]] + rest;
    forall k, l | 0 <= k < l < |r|
      ensures PairInOrder(r, sel, k, l)
    {
      if k == 0 {
        assert rest[l - 1] in tail;
        var j' :| 0 <= j' < |tail| && tail[j'] == rest[l - 1];
        assert sel[0] == r[0] && sel[j' + 1] == r[l];
      } else {
        assert PairInOrder(rest, sel, k - 1, l - 1);
        var i, j :| 0 <= i < j < |sel| && sel[i] == rest[k - 1] && sel[j] == rest[l - 1];
        assert sel[i] == r[k] && sel[j] == r[l];
      }
    }
  }

  /** `ui_prop_change_handler` as written: `if draw_trajectories:` tests the
      truth of the enum's identifier string, which every identifier has. */
  function RedrawsOnChangeAsWritten(mode: string): (b: bool)
    ensures RedrawsOnChange(mode) ==> b
    ensures mode in Identifiers(DrawTrajectoriesItems) ==> b
  {
    |mode| > 0
  }

  /** What the test stands for: draw when trajectories are shown, the same
      condition `toggle_trajectory_drawing` keeps the handler under. */
  function RedrawsOnChange(mode: string): (b: bool)
    ensures forall h :: b <==> Toggle(h, mode).handle.Some?
  {
    mode in {"all", "selected"}
  }

  /** With trajectories switched off, the code as written still calls
      `draw_trajectory`, which then takes the "selected" branch; the
      corrected test skips it. For the two other modes both agree. */
  lemma NoneModeStillRedraws()
    ensures RedrawsOnChangeAsWritten("none") && !RedrawsOnChange("none")
    ensures var ids := Identifiers(DrawTrajectoriesItems);
            forall i :: 0 <= i < |ids| ==> RedrawsOnChangeAsWritten(ids[i])
    ensures RedrawsOnChangeAsWritten("all") == RedrawsOnChange("all")
    ensures RedrawsOnChangeAsWritten("selected") == RedrawsOnChange("selected")
  {
    assert Identifiers(DrawTrajectoriesItems) == ["all", "selected", "none"];
  }
}

=== FILE: instances.dfy ===
/** The `Instance` class of `projectile/ops.py`: one physics copy of the
    emitter's mesh, reused from a pool between lives. Only the parts with
    stateable logic are modelled: the frames `initialize` sets, the launch
    velocity it computes, and the rigid-body flags `set_active` writes. */
module Instances {
  import opened Vectors
  import opened CustomProps

  /** An instance: its host object, the emitter's `lifetime` copied at
      construction, and the frames of its current life. */
  datatype Instance = Instance(obj: ObjectId, lifetime: int, startFrame: int, endFrame: int)

  /** `Instance(ob, emitter)`. The frames are not set until `initialize`; the
      model puts 0 there and every caller initialises before reading them. */
  function New(obj: ObjectId, lifetime: int): (i: Instance)
    ensures i.obj == obj && i.lifetime == lifetime
  {
    Instance(obj, lifetime, 0, 0)
  }

  /** `initialize(start_frame)`: a new life starting at `frame` that ends
      `lifetime` frames later; the object and lifetime are kept. */
  function Initialize(i: Instance, frame: int): (r: Instance)
    ensures r.obj == i.obj && r.lifetime == i.lifetime
    ensures r.startFrame == frame && r.endFrame - r.startFrame == i.lifetime
  {
    i.(startFrame := frame, endFrame := frame + i.lifetime)
  }

  /** A pooled instance that is initialised again forgets its previous life. */
  lemma ReinitializeForgetsPreviousLife(i: Instance, a: int, b: int)
    ensures Initialize(Initialize(i, a), b) == Initialize(i, b)
  {
  }

  /** `get_emitter_velocity`: the emitter's own velocity, estimated from its
      location at the spawn frame and at the frame before, in units per
      second: moving one frame at that velocity carries the earlier location to
      the later one. The two locations are host data and are parameters. */
  function EmitterVelocity(locNow: Vec3, locBefore: Vec3, fps: int): (r: Vec3)
    ensures locNow == locBefore ==> r == Zero
    ensures fps != 0 ==> Add(locBefore, Scale(1.0 / fps as real, r)) == locNow
  {
    Scale(fps as real, Sub(locNow, locBefore))
  }

  /** The velocity `initialize` gives an instance: the emitter's velocity plus
      the launch velocity `v`. */
  function LaunchVelocity(v: Vec3, locNow: Vec3, locBefore: Vec3, fps: int): (r: Vec3)
    ensures locNow == locBefore ==> r == v
  {
    Add(EmitterVelocity(locNow, locBefore, fps), v)
  }

  /** A moving emitter adds its own motion: an emitter that moved by `d` over
      the last frame launches at `v + fps·d`. */
  lemma MovingEmitterAddsItsMotion(v: Vec3, locBefore: Vec3, d: Vec3, fps: int)
    ensures LaunchVelocity(v, Add(locBefore, d), locBefore, fps) == Add(Scale(fps as real, d), v)
  {
    assert Sub(Add(locBefore, d), locBefore) == d;
  }

  /** The rigid-body settings `set_active` writes: Blender's 20 collision
      collections and the `kinematic` (animated) flag. */
  datatype RigidBody = RigidBody(collisionCollections: seq<bool>, kinematic: bool)

  const CollisionCollectionCount := 20

  /** `set_active(active)`: an active instance collides in collection 0 and is
      simulated; an inactive one is moved to collection 19 and animated. No
      other collection changes. */
  function SetActive(rb: RigidBody, active: bool): (r: RigidBody)
    requires |rb.collisionCollections| == CollisionCollectionCount
    ensures |r.collisionCollections| == CollisionCollectionCount
    ensures r.collisionCollections[0] == active && r.collisionCollections[19] == !active
    ensures r.kinematic == !active
    ensures forall i :: 0 < i < 19 ==> r.collisionCollections[i] == rb.collisionCollections[i]
  {
    RigidBody(rb.collisionCollections[0 := active][19 := !active], !active)
  }

  /** Only the last `set_active` counts: the flags it writes do not depend on
      the instance's previous state. */
  lemma SetActiveLastWriteWins(rb: RigidBody, a: bool, b: bool)
    requires |rb.collisionCollections| == CollisionCollectionCount
    ensures SetActive(SetActive(rb, a), b) == SetActive(rb, b)
  {
    var r1 := SetActive(SetActive(rb, a), b).collisionCollections;
    var r2 := SetActive(rb, b).collisionCollections;
    assert forall i :: 0 <= i < |r1| ==> r1[i] == r2[i];
  }
}

=== FILE: kinematics.dfy ===
/** The kinematic equations and coordinate conversions of `projectile/utils.py`.

    The scene settings the Python reads from the host (`render.fps`,
    `use_gravity`, `gravity`) are passed in as a `Physics` record, and the
    transcendental functions of `math` are passed in as a `Trig` record of
    uninterpreted functions: nothing here depends on their values except where
    a lemma names the one fact it needs (`sqrt(0) == 0`, `acos(1) == 0`, ...). */
module Kinematics {
  import opened Vectors

  /** Scene settings consulted by `kinematic_displacement`. Blender keeps the
      frame rate in 1..32767, so every member below asks for `fps >= 1`. */
  datatype Physics = Physics(fps: int, gravity: Vec3, useGravity: bool)

  /** `math.sqrt`, `math.acos`, `math.atan`, `math.sin` and `math.cos`. */
  datatype Trig = Trig(
    sqrt: real -> real,
    acos: real -> real,
    atan: real -> real,
    sin: real -> real,
    cos: real -> real)

  datatype Spherical = Spherical(radius: real, incline: real, azimuth: real)

  /** `dt = (time * 1.0) / frame_rate`: seconds elapsed after `time` frames. */
  function TimeStep(time: int, fps: int): real
    requires fps >= 1
  {
    time as real / fps as real
  }

  /** The gravity vector in effect: the zero vector when gravity is switched off. */
  function EffectiveGravity(p: Physics): Vec3 {
    if p.useGravity then p.gravity else Zero
  }

  /** One axis of the constant-acceleration equation `s0 + v·dt + ½·g·dt²`. */
  function Axis(s0: real, v: real, g: real, dt: real): real {
    s0 + v * dt + 0.5 * g * (dt * dt)
  }

  /** `kinematic_displacement(initial, velocity, time)`: the position reached
      after `time` frames from `initial` with constant `velocity` under the
      scene gravity (if enabled). */
  function Displacement(initial: Vec3, velocity: Vec3, time: int, p: Physics): (r: Vec3)
    requires p.fps >= 1
    ensures time == 0 ==> r == initial
    ensures !p.useGravity ==> r == Add(initial, Scale(TimeStep(time, p.fps), velocity))
  {
    var g := EffectiveGravity(p);
    var dt := TimeStep(time, p.fps);
    Vec3(Axis(initial.x, velocity.x, g.x, dt),
         Axis(initial.y, velocity.y, g.y, dt),
         Axis(initial.z, velocity.z, g.z, dt))
  }

  /** `kinematic_rotation(initial, angular_velocity, time)`: the rotation
      reached after `time` frames at a constant angular rate. */
  function Rotation(initial: Vec3, angularVelocity: Vec3, time: int, fps: int): (r: Vec3)
    requires fps >= 1
    ensures time == 0 ==> r == initial
  {
    var dt := TimeStep(time, fps);
    Vec3(initial.x + angularVelocity.x * dt,
         initial.y + angularVelocity.y * dt,
         initial.z + angularVelocity.z * dt)
  }

  /** Rotation never accelerates: it is the displacement equation with gravity
      switched off, whatever gravity the scene holds. */
  lemma RotationIsGravityFreeDisplacement(initial: Vec3, w: Vec3, time: int, fps: int, gravity: Vec3)
    requires fps >= 1
    ensures Rotation(initial, w, time, fps) == Displacement(initial, w, time, Physics(fps, gravity, false))
    ensures Rotation(initial, w, time, fps) == Add(initial, Scale(TimeStep(time, fps), w))
  {
  }

  /** On one axis the second difference of the equation over consecutive
      frames is the acceleration times the squared frame period. */
  lemma AxisSecondDifference(s0: real, v: real, g: real, t: int, fps: int)
    requires fps >= 1
    ensures Axis(s0, v, g, TimeStep(t + 1, fps)) - 2.0 * Axis(s0, v, g, TimeStep(t, fps))
            + Axis(s0, v, g, TimeStep(t - 1, fps))
         == g * (TimeStep(1, fps) * TimeStep(1, fps))
  {
    var h := TimeStep(1, fps);
    var a := TimeStep(t, fps);
    assert TimeStep(t + 1, fps) == a + h;
    assert TimeStep(t - 1, fps) == a - h;
    calc {
      Axis(s0, v, g, a + h) - 2.0 * Axis(s0, v, g, a) + Axis(s0, v, g, a - h);
      0.5 * g * ((a + h) * (a + h) - 2.0 * (a * a) + (a - h) * (a - h));
      { assert (a + h) * (a + h) - 2.0 * (a * a) + (a - h) * (a - h) == 2.0 * (h * h); }
      g * (h * h);
    }
  }

  /** Constant acceleration: sampled once per frame, the displacement's second
      difference is the effective gravity times the squared frame period, at
      every frame and for every initial position and velocity. */
  lemma DisplacementSecondDifference(initial: Vec3, velocity: Vec3, t: int, p: Physics)
    requires p.fps >= 1
    ensures Add(Sub(Displacement(initial, velocity, t + 1, p), Scale(2.0, Displacement(initial, velocity, t, p))),
                Displacement(initial, velocity, t - 1, p))
         == Scale(TimeStep(1, p.fps) * TimeStep(1, p.fps), EffectiveGravity(p))
  {
    var g := EffectiveGravity(p);
    AxisSecondDifference(initial.x, velocity.x, g.x, t, p.fps);
    AxisSecondDifference(initial.y, velocity.y, g.y, t, p.fps);
    AxisSecondDifference(initial.z, velocity.z, g.z, t, p.fps);
  }

  /** Example: launched straight up at 10 under gravity -10 at 24 frames per
      second, the emitter is at height 5 after 24 frames (one second). */
  lemma OneSecondUpAndBack()
    ensures Displacement(Zero, Vec3(0.0, 0.0, 10.0), 24, Physics(24, Vec3(0.0, 0.0, -10.0), true))
         == Vec3(0.0, 0.0, 5.0)
  {
    assert TimeStep(24, 24) == 1.0;
  }

  /** `spherical_to_cartesian(radius, incline, azimuth)`. */
  function SphericalToCartesian(s: Spherical, trig: Trig): (v: Vec3)
    ensures s.radius == 0.0 ==> v == Zero
  {
    Vec3(s.radius * trig.sin(s.incline) * trig.cos(s.azimuth),
         s.radius * trig.sin(s.incline) * trig.sin(s.azimuth),
         s.radius * trig.cos(s.incline))
  }

  /** `cartesian_to_spherical(v)`, including its two zero fallbacks: incline
      is 0 when the radius is 0 and azimuth is 0 when `x` is 0. The azimuth
      uses the single-argument arctangent of `y / x`, as the source does. */
  function CartesianToSpherical(v: Vec3, trig: Trig): (s: Spherical)
    ensures s.radius == trig.sqrt(NormSq(v))
    ensures s.radius == 0.0 ==> s.incline == 0.0
    ensures v.x == 0.0 ==> s.azimuth == 0.0
  {
    var radius := trig.sqrt(NormSq(v));
    var incline := if radius != 0.0 then trig.acos(v.z / radius) else 0.0;
    var azimuth := if v.x != 0.0 then trig.atan(v.y / v.x) else 0.0;
    Spherical(radius, incline, azimuth)
  }

  /** The zero velocity converts to the all-zero triple whatever the angle
      functions are (only `sqrt(0) == 0` is needed), and converts back to
      itself. */
  lemma ZeroVelocitySpherical(trig: Trig)
    requires trig.sqrt(0.0) == 0.0
    ensures CartesianToSpherical(Zero, trig) == Spherical(0.0, 0.0, 0.0)
    ensures SphericalToCartesian(CartesianToSpherical(Zero, trig), trig) == Zero
  {
  }

  /** A vertical velocity survives the round trip to spherical coordinates and
      back exactly, given only the values of the functions it evaluates:
      `sqrt(z²) == z`, `acos(1) == 0`, `sin(0) == 0` and `cos(0) == 1`. This
      covers the vertical velocity `(0, 0, 5)` and every other height `z > 0`. */
  lemma VerticalRoundTrip(z: real, trig: Trig)
    requires 0.0 < z
    requires trig.sqrt(z * z) == z
    requires trig.acos(1.0) == 0.0 && trig.sin(0.0) == 0.0 && trig.cos(0.0) == 1.0
    ensures CartesianToSpherical(Vec3(0.0, 0.0, z), trig) == Spherical(z, 0.0, 0.0)
    ensures SphericalToCartesian(CartesianToSpherical(Vec3(0.0, 0.0, z), trig), trig) == Vec3(0.0, 0.0, z)
  {
    assert NormSq(Vec3(0.0, 0.0, z)) == z * z;
    assert z / z == 1.0;
  }

  /** Off the vertical axis with `x == 0` the azimuth falls back to 0 and the
      `y` component is lost on the way back: `(0, y, z)` with `y != 0` returns
      with `y == 0`. The fallback is a convention, not a round trip. */
  lemma AzimuthFallbackLosesY(y: real, z: real, trig: Trig)
    requires y != 0.0
    requires trig.sin(0.0) == 0.0
    ensures CartesianToSpherical(Vec3(0.0, y, z), trig).azimuth == 0.0
    ensures SphericalToCartesian(CartesianToSpherical(Vec3(0.0, y, z), trig), trig).y == 0.0
  {
  }

  /** The single-argument arctangent keeps the azimuth in (-π/2, π/2), so
      its cosine is positive; `acos` keeps the incline in [0, π], so its sine
      is non-negative; and a radius is never negative. Hence the way back
      always gives `x >= 0`, and no velocity with `x < 0` survives the round
      trip. */
  lemma NegativeXIsMirrored(v: Vec3, trig: Trig)
    requires v.x < 0.0
    requires forall n :: trig.sqrt(n) >= 0.0
    requires forall c :: trig.sin(trig.acos(c)) >= 0.0
    requires forall t :: trig.cos(trig.atan(t)) > 0.0
    ensures SphericalToCartesian(CartesianToSpherical(v, trig), trig).x >= 0.0
    ensures SphericalToCartesian(CartesianToSpherical(v, trig), trig) != v
  {
    var s := CartesianToSpherical(v, trig);
    var a := trig.sin(s.incline);
    var b := trig.cos(s.azimuth);
    assert s.radius >= 0.0;
    assert s.radius * a >= 0.0 by {
      if s.radius != 0.0 {
        assert s.incline == trig.acos(v.z / s.radius);
      }
    }
    assert b > 0.0 by {
      assert s.azimuth == trig.atan(v.y / v.x);
    }
    assert s.radius * a * b >= 0.0;
  }
}

=== FILE: operators.dfy ===
/** The operators of `projectile/ops.py` as they act on the scene:
    `PHYSICS_OT_projectile_execute` (the schedule of `Scheduler` plus its
    effect on the emitter and the frame), `PHYSICS_OT_projectile_execute_all`,
    `execute_all_poll` of `ui.py`, and `get_object_collection`. */
module Operators {
  import opened Wrappers
  import opened CustomProps
  import opened Props
  import opened Scenes
  import Scheduler

  /** `poll()` refused the active object (no object, or not an emitter), or
      `step = frames / number` divided by zero for this emitter. */
  datatype OpError = PollFailed | ZeroDivisionError(emitter: ObjectId)

  /** The emitter's settings give a non-empty spawn count, so its schedule
      can be computed. */
  predicate Schedulable(p: ProjectileProps) {
    Scheduler.SpawnCount(p.startFrame, p.endFrame, p.instanceCount) != 0
  }

  function Schedule(p: ProjectileProps): Result<Scheduler.State, Scheduler.ScheduleError> {
    Scheduler.Execute(p.startFrame, p.endFrame, p.instanceCount, p.lifetime)
  }

  /** `PHYSICS_OT_projectile_execute`: poll, run the schedule for the active
      emitter, then reset the current frame to 0 and clear the emitter's
      dirty flag. The instances' keyframes are host data; the schedule that
      decides them is returned. */
  function Execute(s: Scene): (r: Result<(Scene, Scheduler.State), OpError>)
    ensures r == Err(PollFailed) <==> ActiveObject(s).None? || !s.objects[ActiveObject(s).value].isEmitter
    ensures r.Err? && r != Err(PollFailed) ==>
              r == Err(ZeroDivisionError(ActiveObject(s).value)) && !Schedulable(s.objects[ActiveObject(s).value])
    ensures r.Ok? ==> ActiveObject(s).Some? && Schedulable(s.objects[ActiveObject(s).value])
    ensures r.Ok? ==>
              var o := ActiveObject(s).value;
              var t := r.value.0;
              && |t.objects| == |s.objects| && t.active == s.active && t.frameCurrent == 0
              && t.objects[o] == s.objects[o].(isDirty := false)
              && (forall i :: 0 <= i < |s.objects| && i != o ==> t.objects[i] == s.objects[i])
              && Ok(r.value.1) == Schedule(s.objects[o])
  {
    match ActiveObject(s)
    case None => Err(PollFailed)
    case Some(o) =>
      var p := s.objects[o];
      if !p.isEmitter then Err(PollFailed)
      else
        match Schedule(p)
        case Err(_) => Err(ZeroDivisionError(o))
        case Ok(st) => Ok((EditObject(s, o, SetIsDirty(false)).(frameCurrent := 0), st))
  }

  /** The dirty emitters from index `i` on, in scene order. */
  function DirtyFrom(s: Scene, i: nat): (ids: seq<ObjectId>)
    requires i <= |s.objects|
    ensures forall k :: 0 <= k < |ids| ==> i <= ids[k] < |s.objects| && DirtyEmitter(s, ids[k])
    ensures forall k, l :: 0 <= k < l < |ids| ==> ids[k] < ids[l]
    ensures forall j :: i <= j < |s.objects| && DirtyEmitter(s, j) ==> j in ids
    decreases |s.objects| - i
  {
    if i == |s.objects| then []
    else if DirtyEmitter(s, i) then [i] + DirtyFrom(s, i + 1)
    else DirtyFrom(s, i + 1)
  }

  /** What `execute_all` leaves in object `j`: dirty emitters are cleaned,
      every other object is unchanged. */
  function AfterExecuteAll(p: ProjectileProps): ProjectileProps {
    if p.isEmitter && p.isDirty then p.(isDirty := false) else p
  }

  /** `DirtyFrom` only looks at the objects from index `i` on. */
  lemma {:induction false} DirtyFromSuffix(s: Scene, t: Scene, i: nat)
    requires i <= |s.objects| == |t.objects|
    requires forall j :: i <= j < |s.objects| ==> s.objects[j] == t.objects[j]
    ensures DirtyFrom(s, i) == DirtyFrom(t, i)
    decreases |s.objects| - i
  {
    if i < |s.objects| {
      DirtyFromSuffix(s, t, i + 1);
    }
  }

  /** A failed `execute_all`: the error `bpy.ops` re-raises and the scene as
      the exception leaves it. Nothing is rolled back: the emitters executed
      before the failing one stay executed, and the failing one stays
      active. */
  datatype Aborted = Aborted(error: OpError, scene: Scene)

  /** The loop of `PHYSICS_OT_projectile_execute_all.execute` from the
      emitter at index `i` on: each emitter still dirty is made active and
      executed. Returns the scene and the emitters that ran, or the first
      failure with the scene it leaves. Executing an emitter only clears its
      own flag, so testing the flag as the loop reaches it tests its value
      before the loop. */
  function ExecuteAllFrom(s: Scene, i: nat): (r: Result<(Scene, seq<ObjectId>), Aborted>)
    requires i <= |s.objects|
    ensures r.Ok? ==> |r.value.0.objects| == |s.objects|
    ensures r.Err? ==> |r.error.scene.objects| == |s.objects|
    decreases |s.objects| - i
  {
    if i == |s.objects| then Ok((s, []))
    else if !DirtyEmitter(s, i) then ExecuteAllFrom(s, i + 1)
    else
      match Execute(s.(active := Some(i)))
      case Err(x) => Err(Aborted(x, s.(active := Some(i))))
      case Ok((s1, _)) =>
        match ExecuteAllFrom(s1, i + 1)
        case Err(x) => Err(x)
        case Ok((s2, ran)) => Ok((s2, [i] + ran))
  }

  /** Executing emitter `i` changes only its dirty flag. */
  lemma ExecuteClearsOnlyFlag(s: Scene, i: nat)
    requires i < |s.objects| && DirtyEmitter(s, i) && Execute(s.(active := Some(i))).Ok?
    ensures var s1 := Execute(s.(active := Some(i))).value.0;
            && |s1.objects| == |s.objects|
            && s1.objects[i] == AfterExecuteAll(s.objects[i])
            && (forall j :: 0 <= j < |s.objects| && j != i ==> s1.objects[j] == s.objects[j])
            && DirtyFrom(s1, i + 1) == DirtyFrom(s, i + 1)
  {
    var s1 := Execute(s.(active := Some(i))).value.0;
    DirtyFromSuffix(s, s1, i + 1);
  }

  /** Every dirty emitter from index `i` on has a non-empty spawn count. */
  predicate AllSchedulable(s: Scene, i: nat)
    requires i <= |s.objects|
  {
    forall j :: i <= j < |s.objects| && DirtyEmitter(s, j) ==> Schedulable(s.objects[j])
  }

  lemma AllSchedulableStep(s: Scene, t: Scene, i: nat)
    requires i < |s.objects| == |t.objects|
    requires forall j :: i < j < |s.objects| ==> t.objects[j] == s.objects[j]
    ensures AllSchedulable(s, i) <==> (DirtyEmitter(s, i) ==> Schedulable(s.objects[i])) && AllSchedulable(t, i + 1)
  {
  }

  /** The loop from `i` fails exactly when a dirty emitter from `i` on has an
      empty spawn count. */
  lemma {:induction false} ExecuteAllFromFails(s: Scene, i: nat)
    requires i <= |s.objects|
    ensures ExecuteAllFrom(s, i).Ok? <==> AllSchedulable(s, i)
    decreases |s.objects| - i
  {
    if i < |s.objects| {
      AllSchedulableStep(s, s, i);
      if !DirtyEmitter(s, i) {
        ExecuteAllFromFails(s, i + 1);
      } else if Execute(s.(active := Some(i))).Ok? {
        var s1 := Execute(s.(active := Some(i))).value.0;
        ExecuteClearsOnlyFlag(s, i);
        ExecuteAllStep(s, i);
        ExecuteAllFromFails(s1, i + 1);
        AllSchedulableStep(s, s1, i);
      }
    }
  }

  /** After the loop from `i`: the emitters that ran are the dirty ones from
      `i` on, the objects before `i` are unchanged, and from `i` on dirty
      emitters are clean while the other objects are unchanged. */
  lemma {:induction false} ExecuteAllFromResult(s: Scene, i: nat)
    requires i <= |s.objects|
    ensures var r := ExecuteAllFrom(s, i);
            r.Ok? ==>
              && r.value.1 == DirtyFrom(s, i)
              && (forall j :: 0 <= j < i ==> r.value.0.objects[j] == s.objects[j])
              && (forall j :: i <= j < |s.objects| ==> r.value.0.objects[j] == AfterExecuteAll(s.objects[j]))
    decreases |s.objects| - i
  {
    if i < |s.objects| {
      if !DirtyEmitter(s, i) {
        ExecuteAllFromResult(s, i + 1);
      } else if Execute(s.(active := Some(i))).Ok? {
        var s1 := Execute(s.(active := Some(i))).value.0;
        ExecuteClearsOnlyFlag(s, i);
        ExecuteAllStep(s, i);
        ExecuteAllFromResult(s1, i + 1);
      }
    }
  }

  /** Some dirty emitter lies in `i..k-1`, so the loop executed one there. */
  predicate RanBetween(s: Scene, i: nat, k: nat)
    requires k <= |s.objects|
  {
    exists j :: i <= j < k && DirtyEmitter(s, j)
  }

  /** What the loop from `i` leaves when emitter `k` raises: `k` is the first
      dirty emitter from `i` on whose spawn count is empty; the dirty
      emitters before it were executed and are clean; it and every later
      object are as they were; it is the active object; and the current
      frame is 0 when an earlier emitter ran, unchanged otherwise. */
  predicate AbortedAt(s: Scene, i: nat, k: nat, t: Scene)
    requires i <= |s.objects|
  {
    && i <= k < |s.objects| && DirtyEmitter(s, k) && !Schedulable(s.objects[k])
    && (forall j :: i <= j < k && DirtyEmitter(s, j) ==> Schedulable(s.objects[j]))
    && |t.objects| == |s.objects| && t.active == Some(k)
    && t.frameCurrent == (if RanBetween(s, i, k) then 0 else s.frameCurrent)
    && (forall j :: 0 <= j < i ==> t.objects[j] == s.objects[j])
    && (forall j :: i <= j < k ==> t.objects[j] == AfterExecuteAll(s.objects[j]))
    && (forall j :: k <= j < |s.objects| ==> t.objects[j] == s.objects[j])
  }

  /** A failure of the loop from `i` is the division by zero of the first
      unschedulable dirty emitter, and leaves the partial scene `AbortedAt`
      describes. */
  lemma {:induction false} ExecuteAllFromAborts(s: Scene, i: nat)
    requires i <= |s.objects|
    ensures var r := ExecuteAllFrom(s, i);
            r.Err? ==> r.error.error.ZeroDivisionError? && AbortedAt(s, i, r.error.error.emitter, r.error.scene)
    decreases |s.objects| - i
  {
    if i < |s.objects| {
      if !DirtyEmitter(s, i) {
        ExecuteAllFromAborts(s, i + 1);
        AbortsAfterSkip(s, i);
      } else if Execute(s.(active := Some(i))).Ok? {
        var s1 := Execute(s.(active := Some(i))).value.0;
        ExecuteAllFromAborts(s1, i + 1);
        AbortsAfterRun(s, i);
      } else {
        AbortsHere(s, i);
      }
    }
  }

  /** The failure `ExecuteAllFromAborts` describes, if the loop from `i`
      fails. */
  predicate AbortsAsDescribed(s: Scene, i: nat)
    requires i <= |s.objects|
  {
    var r := ExecuteAllFrom(s, i);
    r.Err? ==> r.error.error.ZeroDivisionError? && AbortedAt(s, i, r.error.error.emitter, r.error.scene)
  }

  /** The loop fails at the dirty emitter `i` itself. */
  lemma AbortsHere(s: Scene, i: nat)
    requires i < |s.objects| && DirtyEmitter(s, i) && Execute(s.(active := Some(i))).Err?
    ensures AbortsAsDescribed(s, i)
  {
    assert !RanBetween(s, i, i);
  }

  /** The loop skips the clean object `i`. */
  lemma AbortsAfterSkip(s: Scene, i: nat)
    requires i < |s.objects| && !DirtyEmitter(s, i)
    requires AbortsAsDescribed(s, i + 1)
    ensures AbortsAsDescribed(s, i)
  {
    var r := ExecuteAllFrom(s, i + 1);
    if r.Err? {
      AbortedAtSkip(s, i, r.error.error.emitter, r.error.scene);
    }
  }

  /** The loop executes the dirty emitter `i` and goes on. */
  lemma AbortsAfterRun(s: Scene, i: nat)
    requires i < |s.objects| && DirtyEmitter(s, i) && Execute(s.(active := Some(i))).Ok?
    requires AbortsAsDescribed(Execute(s.(active := Some(i))).value.0, i + 1)
    ensures AbortsAsDescribed(s, i)
  {
    var s1 := Execute(s.(active := Some(i))).value.0;
    ExecuteClearsOnlyFlag(s, i);
    ExecuteAllStep(s, i);
    var r := ExecuteAllFrom(s1, i + 1);
    if r.Err? {
      AbortedAtAfterRun(s, s1, i, r.error.error.emitter, r.error.scene);
    }
  }

  /** A failure after skipping a clean object `i` is a failure from `i`. */
  lemma AbortedAtSkip(s: Scene, i: nat, k: nat, t: Scene)
    requires i < |s.objects| && !DirtyEmitter(s, i)
    requires AbortedAt(s, i + 1, k, t)
    ensures AbortedAt(s, i, k, t)
  {
    assert RanBetween(s, i, k) == RanBetween(s, i + 1, k);
  }

  /** A failure after executing the dirty emitter `i` into `s1` is a failure
      from `i`, with the frame reset by that execution. */
  lemma AbortedAtAfterRun(s: Scene, s1: Scene, i: nat, k: nat, t: Scene)
    requires i < |s.objects| == |s1.objects| && DirtyEmitter(s, i) && Schedulable(s.objects[i])
    requires s1.objects[i] == AfterExecuteAll(s.objects[i]) && s1.frameCurrent == 0
    requires forall j :: 0 <= j < |s.objects| && j != i ==> s1.objects[j] == s.objects[j]
    requires AbortedAt(s1, i + 1, k, t)
    ensures AbortedAt(s, i, k, t)
  {
    assert RanBetween(s, i, k);
    forall j | i < j < |s.objects|
      ensures DirtyEmitter(s, j) == DirtyEmitter(s1, j)
    {
    }
  }

  /** With no dirty emitter from `i` on, the loop changes nothing. */
  lemma {:induction false} CleanSceneUnchanged(s: Scene, i: nat)
    requires i <= |s.objects|
    requires forall j :: i <= j < |s.objects| ==> !DirtyEmitter(s, j)
    ensures ExecuteAllFrom(s, i) == Ok((s, []))
    decreases |s.objects| - i
  {
    if i < |s.objects| {
      CleanSceneUnchanged(s, i + 1);
    }
  }

  /** One turn of the loop at a dirty emitter that executes. */
  lemma ExecuteAllStep(s: Scene, i: nat)
    requires i < |s.objects| && DirtyEmitter(s, i) && Execute(s.(active := Some(i))).Ok?
    ensures var s1 := Execute(s.(active := Some(i))).value.0;
            && |s1.objects| == |s.objects| && s1.active == Some(i) && s1.frameCurrent == 0
            && ExecuteAllFrom(s, i) ==
               match ExecuteAllFrom(s1, i + 1)
               case Err(x) => Err(x)
               case Ok((s2, ran)) => Ok((s2, [i] + ran))
  {
  }

  /** Once an emitter ran, the loop ends with the current frame at 0 and
      the last emitter that ran as the active object. */
  lemma {:induction false} ExecuteAllLeavesLastActive(s: Scene, i: nat)
    requires i <= |s.objects|
    ensures var r := ExecuteAllFrom(s, i);
            r.Ok? && r.value.1 != [] ==>
              r.value.0.frameCurrent == 0 && r.value.0.active == Some(r.value.1[|r.value.1| - 1])
    decreases |s.objects| - i
  {
    if i < |s.objects| {
      if !DirtyEmitter(s, i) {
        assert ExecuteAllFrom(s, i) == ExecuteAllFrom(s, i + 1);
        ExecuteAllLeavesLastActive(s, i + 1);
      } else if Execute(s.(active := Some(i))).Ok? {
        var s1 := Execute(s.(active := Some(i))).value.0;
        ExecuteAllStep(s, i);
        ExecuteAllLeavesLastActive(s1, i + 1);
        CleanSceneUnchangedIfNoneRan(s1, i + 1);
        var r1 := ExecuteAllFrom(s1, i + 1);
        if r1.Ok? {
          var ran := r1.value.1;
          assert ([i] + ran)[|[i] + ran| - 1] == if ran == [] then i else ran[|ran| - 1];
        }
      }
    }
  }

  /** When the loop from `i` runs nothing, it returns its scene unchanged. */
  lemma {:induction false} CleanSceneUnchangedIfNoneRan(s: Scene, i: nat)
    requires i <= |s.objects|
    ensures var r := ExecuteAllFrom(s, i);
            r.Ok? && r.value.1 == [] ==> r.value.0 == s
    decreases |s.objects| - i
  {
    if i < |s.objects| && !DirtyEmitter(s, i) {
      CleanSceneUnchangedIfNoneRan(s, i + 1);
    }
  }

  /** `PHYSICS_OT_projectile_execute_all.execute`. */
  function ExecuteAll(s: Scene): (r: Result<(Scene, seq<ObjectId>), Aborted>)
    ensures r.Ok? ==> |r.value.0.objects| == |s.objects|
    ensures r.Err? ==> |r.error.scene.objects| == |s.objects|
                       && r.error.error.ZeroDivisionError? && r.error.scene.active == Some(r.error.error.emitter)
  {
    ExecuteAllFromAborts(s, 0);
    ExecuteAllFrom(s, 0)
  }

  /** `execute_all` runs `execute` on exactly the dirty emitters, in scene
      order; afterwards no emitter is dirty and nothing else changed. It
      fails exactly when one of them has an empty spawn count, and then
      leaves the emitters before the first such one executed. */
  lemma ExecuteAllRunsDirtyEmitters(s: Scene)
    ensures ExecuteAll(s).Ok? <==> forall j :: 0 <= j < |s.objects| && DirtyEmitter(s, j) ==> Schedulable(s.objects[j])
    ensures ExecuteAll(s).Ok? ==>
              var t := ExecuteAll(s).value.0;
              var ran := ExecuteAll(s).value.1;
              && |t.objects| == |s.objects|
              && (forall j :: 0 <= j < |s.objects| ==> (j in ran <==> DirtyEmitter(s, j)))
              && (forall k, l :: 0 <= k < l < |ran| ==> ran[k] < ran[l])
              && (forall j :: 0 <= j < |t.objects| ==> !DirtyEmitter(t, j))
              && (forall j :: 0 <= j < |s.objects| && !DirtyEmitter(s, j) ==> t.objects[j] == s.objects[j])
    ensures ExecuteAll(s).Err? ==>
              ExecuteAll(s).error.error.ZeroDivisionError?
              && AbortedAt(s, 0, ExecuteAll(s).error.error.emitter, ExecuteAll(s).error.scene)
  {
    ExecuteAllFromFails(s, 0);
    ExecuteAllFromResult(s, 0);
    ExecuteAllFromAborts(s, 0);
  }

  /** `execute_all_poll(context)`: whether some scene object is a dirty
      emitter. */
  method ExecuteAllPoll(s: Scene) returns (b: bool)
    ensures b <==> exists j :: 0 <= j < |s.objects| && DirtyEmitter(s, j)
  {
    for i := 0 to |s.objects|
      invariant forall j :: 0 <= j < i ==> !DirtyEmitter(s, j)
    {
      if s.objects[i].isEmitter && s.objects[i].isDirty {
        assert DirtyEmitter(s, i);
        return true;
      }
    }
    return false;
  }

  /** When the poll is false, `execute_all` has nothing to do; after it
      succeeded, the poll is false. */
  lemma PollMatchesExecuteAll(s: Scene)
    ensures (forall j :: 0 <= j < |s.objects| ==> !DirtyEmitter(s, j)) ==> ExecuteAll(s) == Ok((s, []))
    ensures ExecuteAll(s).Ok? ==>
              var t := ExecuteAll(s).value.0;
              forall j :: 0 <= j < |t.objects| ==> !DirtyEmitter(t, j)
  {
    ExecuteAllRunsDirtyEmitters(s);
    if forall j :: 0 <= j < |s.objects| ==> !DirtyEmitter(s, j) {
      CleanSceneUnchanged(s, 0);
    }
  }

  // ---------------------------------------------------------------------
  // `get_object_collection`

  /** A collection: the names of the objects linked to it and the keys of its
      own ID properties. */
  datatype Collection = Collection(objects: seq<string>, idProps: seq<string>)

  /** Where an object was found: the `k`-th of `bpy.data.collections`, or the
      scene's master collection. */
  datatype Found = DataCollection(k: nat) | SceneCollection

  /** The first of `colls` from index `i` on that links an object called
      `name`. */
  function FirstLinking(colls: seq<Collection>, name: string, i: nat): (k: Option<nat>)
    requires i <= |colls|
    ensures k.Some? ==> i <= k.value < |colls| && name in colls[k.value].objects
    ensures k.Some? ==> forall j :: i <= j < k.value ==> name !in colls[j].objects
    ensures k.None? ==> forall j :: i <= j < |colls| ==> name !in colls[j].objects
    decreases |colls| - i
  {
    if i == |colls| then None
    else if name in colls[i].objects then Some(i)
    else FirstLinking(colls, name, i + 1)
  }

  /** `get_object_collection(ob)` as written: the fallback `ob.name in
      bpy.context.scene.collection` applies `in` to the collection itself,
      which looks the name up among its ID property keys rather than among
      its objects. */
  function GetObjectCollectionAsWritten(colls: seq<Collection>, master: Collection, name: string): (r: Option<Found>)
    ensures r.Some? && r.value.DataCollection? ==>
              r.value.k < |colls| && name in colls[r.value.k].objects
              && forall j :: 0 <= j < r.value.k ==> name !in colls[j].objects
    ensures r == Some(SceneCollection) <==>
              (forall j :: 0 <= j < |colls| ==> name !in colls[j].objects) && name in master.idProps
    ensures r.None? <==>
              (forall j :: 0 <= j < |colls| ==> name !in colls[j].objects) && name !in master.idProps
  {
    match FirstLinking(colls, name, 0)
    case Some(k) => Some(DataCollection(k))
    case None => if name in master.idProps then Some(SceneCollection) else None
  }

  /** `get_object_collection(ob)` as intended: the first data collection
      linking the object, else the scene's master collection if it links the
      object, else nothing. */
  function GetObjectCollection(colls: seq<Collection>, master: Collection, name: string): (r: Option<Found>)
    ensures r.Some? && r.value.DataCollection? ==>
              r.value.k < |colls| && name in colls[r.value.k].objects
              && forall j :: 0 <= j < r.value.k ==> name !in colls[j].objects
    ensures r == Some(SceneCollection) <==>
              (forall j :: 0 <= j < |colls| ==> name !in colls[j].objects) && name in master.objects
    ensures r.None? <==>
              (forall j :: 0 <= j < |colls| ==> name !in colls[j].objects) && name !in master.objects
  {
    match FirstLinking(colls, name, 0)
    case Some(k) => Some(DataCollection(k))
    case None => if name in master.objects then Some(SceneCollection) else None
  }

  /** The two versions agree whenever a data collection links the object;
      they differ only in what the fallback tests. */
  lemma AsWrittenDiffersOnlyInFallback(colls: seq<Collection>, master: Collection, name: string)
    ensures (exists j :: 0 <= j < |colls| && name in colls[j].objects) ==>
              GetObjectCollectionAsWritten(colls, master, name) == GetObjectCollection(colls, master, name)
    ensures master.idProps == master.objects ==>
              GetObjectCollectionAsWritten(colls, master, name) == GetObjectCollection(colls, master, name)
  {
  }

  /** The discrepancy: an object linked only to the scene's master collection
      (which has no ID properties) is not found by the code as written, so
      `PHYSICS_OT_projectile_add` would call `objects.link` on `None`. */
  lemma ObjectOnlyInSceneCollectionIsMissed()
    ensures GetObjectCollectionAsWritten([], Collection(["Cube"], []), "Cube") == None
    ensures GetObjectCollection([], Collection(["Cube"], []), "Cube") == Some(SceneCollection)
  {
  }
}

=== FILE: props.dfy ===
/** The property groups of `props.py`: `ProjectileObject` (the per-object
    `projectile_props`) and `ProjectileSettings` (the per-scene
    `projectile_settings`), with their defaults and bounds, the way an
    assignment stores a value, and `enum_prop_to_py`. */
module Props {
  import opened Vectors
  import opened CustomProps

  /** `ProjectileObject`. `custom` holds the ID properties the operators store
      next to the declared ones (`emitter`, `instance_object`,
      `instances_collection`). */
  datatype ProjectileProps = ProjectileProps(
    isEmitter: bool,
    isDirty: bool,
    startFrame: int,
    endFrame: int,
    instanceCount: int,
    v: Vec3,
    w: Vec3,
    startHidden: bool,
    lifetime: int,
    radius: real,
    incline: real,
    azimuth: real,
    friction: real,
    bounciness: real,
    collisionShape: string,
    custom: Bag)

  /** The hard minimums of the integer properties; `instance_count` has none. */
  const StartFrameMin := 1
  const EndFrameMin := 1
  const LifetimeMin := 0

  /** The declared defaults. */
  const Defaults := ProjectileProps(
    false, false, 1, 50, 1, Zero, Zero, false, 0, 0.0, 0.0, 0.0, 0.5, 0.0, "CONVEX_HULL", map[])

  predicate WithinBounds(p: ProjectileProps) {
    p.startFrame >= StartFrameMin && p.endFrame >= EndFrameMin && p.lifetime >= LifetimeMin
  }

  /** The defaults respect the bounds, and describe a non-emitter that is not
      dirty, spawning one instance over frames 1 to 50 that lives forever. */
  lemma DefaultsWithinBounds()
    ensures WithinBounds(Defaults)
    ensures !Defaults.isEmitter && !Defaults.isDirty
    ensures Defaults.startFrame == 1 && Defaults.endFrame == 50
    ensures Defaults.instanceCount == 1 && Defaults.lifetime == 0
  {
  }

  /** The declared properties, by name. */
  datatype Field =
    | IsEmitter | IsDirty | StartFrame | EndFrame | InstanceCount | V | W
    | StartHidden | Lifetime | Radius | Incline | Azimuth | Friction | Bounciness | CollisionShape

  datatype Value = VBool(b: bool) | VInt(i: int) | VReal(r: real) | VVec(vec: Vec3) | VStr(s: string)

  /** Reading a property. */
  function Get(p: ProjectileProps, f: Field): Value {
    match f
    case IsEmitter => VBool(p.isEmitter)
    case IsDirty => VBool(p.isDirty)
    case StartFrame => VInt(p.startFrame)
    case EndFrame => VInt(p.endFrame)
    case InstanceCount => VInt(p.instanceCount)
    case V => VVec(p.v)
    case W => VVec(p.w)
    case StartHidden => VBool(p.startHidden)
    case Lifetime => VInt(p.lifetime)
    case Radius => VReal(p.radius)
    case Incline => VReal(p.incline)
    case Azimuth => VReal(p.azimuth)
    case Friction => VReal(p.friction)
    case Bounciness => VReal(p.bounciness)
    case CollisionShape => VStr(p.collisionShape)
  }

  /** An assignment `ob.projectile_props.<field> = value`. */
  datatype Edit =
    | SetIsEmitter(b: bool)
    | SetIsDirty(b: bool)
    | SetStartFrame(i: int)
    | SetEndFrame(i: int)
    | SetInstanceCount(i: int)
    | SetV(vec: Vec3)
    | SetW(vec: Vec3)
    | SetStartHidden(b: bool)
    | SetLifetime(i: int)
    | SetRadius(r: real)
    | SetIncline(r: real)
    | SetAzimuth(r: real)
    | SetFriction(r: real)
    | SetBounciness(r: real)
    | SetCollisionShape(s: string)

  function FieldOf(e: Edit): Field {
    match e
    case SetIsEmitter(_) => IsEmitter
    case SetIsDirty(_) => IsDirty
    case SetStartFrame(_) => StartFrame
    case SetEndFrame(_) => EndFrame
    case SetInstanceCount(_) => InstanceCount
    case SetV(_) => V
    case SetW(_) => W
    case SetStartHidden(_) => StartHidden
    case SetLifetime(_) => Lifetime
    case SetRadius(_) => Radius
    case SetIncline(_) => Incline
    case SetAzimuth(_) => Azimuth
    case SetFriction(_) => Friction
    case SetBounciness(_) => Bounciness
    case SetCollisionShape(_) => CollisionShape
  }

  /** An integer property with a hard minimum stores a smaller value as the
      minimum. */
  function ClampMin(x: int, lo: int): (r: int)
    ensures r >= lo
    ensures x >= lo ==> r == x
    ensures x < lo ==> r == lo
  {
    if x < lo then lo else x
  }

  /** The value an assignment stores: clamped for the bounded integer
      properties, as given for every other one (the float properties only
      have soft limits, which are UI hints). */
  function Stored(e: Edit): Value {
    match e
    case SetIsEmitter(b) => VBool(b)
    case SetIsDirty(b) => VBool(b)
    case SetStartFrame(i) => VInt(ClampMin(i, StartFrameMin))
    case SetEndFrame(i) => VInt(ClampMin(i, EndFrameMin))
    case SetInstanceCount(i) => VInt(i)
    case SetV(vec) => VVec(vec)
    case SetW(vec) => VVec(vec)
    case SetStartHidden(b) => VBool(b)
    case SetLifetime(i) => VInt(ClampMin(i, LifetimeMin))
    case SetRadius(r) => VReal(r)
    case SetIncline(r) => VReal(r)
    case SetAzimuth(r) => VReal(r)
    case SetFriction(r) => VReal(r)
    case SetBounciness(r) => VReal(r)
    case SetCollisionShape(s) => VStr(s)
  }

  /** Performing an assignment: the ID properties are unchanged and the
      bounds keep holding (`ApplyReadsBack` states what is read back). */
  function Apply(p: ProjectileProps, e: Edit): (r: ProjectileProps)
    ensures r.custom == p.custom
    ensures WithinBounds(p) ==> WithinBounds(r)
  {
    match e
    case SetIsEmitter(b) => p.(isEmitter := b)
    case SetIsDirty(b) => p.(isDirty := b)
    case SetStartFrame(i) => p.(startFrame := ClampMin(i, StartFrameMin))
    case SetEndFrame(i) => p.(endFrame := ClampMin(i, EndFrameMin))
    case SetInstanceCount(i) => p.(instanceCount := i)
    case SetV(vec) => p.(v := vec)
    case SetW(vec) => p.(w := vec)
    case SetStartHidden(b) => p.(startHidden := b)
    case SetLifetime(i) => p.(lifetime := ClampMin(i, LifetimeMin))
    case SetRadius(r) => p.(radius := r)
    case SetIncline(r) => p.(incline := r)
    case SetAzimuth(r) => p.(azimuth := r)
    case SetFriction(r) => p.(friction := r)
    case SetBounciness(r) => p.(bounciness := r)
    case SetCollisionShape(s) => p.(collisionShape := s)
  }

  /** After an assignment the edited property reads back the stored value
      and every other property reads as before. */
  lemma ApplyReadsBack(p: ProjectileProps, e: Edit)
    ensures Get(Apply(p, e), FieldOf(e)) == Stored(e)
    ensures forall f :: f != FieldOf(e) ==> Get(Apply(p, e), f) == Get(p, f)
  {
  }

  /** A property group is determined by its properties and ID properties. */
  lemma {:induction false} Extensionality(p: ProjectileProps, q: ProjectileProps)
    requires forall f :: Get(p, f) == Get(q, f)
    requires p.custom == q.custom
    ensures p == q
  {
    assert p.isEmitter == q.isEmitter by { assert Get(p, IsEmitter) == Get(q, IsEmitter); }
    assert p.isDirty == q.isDirty by { assert Get(p, IsDirty) == Get(q, IsDirty); }
    assert p.startFrame == q.startFrame by { assert Get(p, StartFrame) == Get(q, StartFrame); }
    assert p.endFrame == q.endFrame by { assert Get(p, EndFrame) == Get(q, EndFrame); }
    assert p.instanceCount == q.instanceCount by { assert Get(p, InstanceCount) == Get(q, InstanceCount); }
    assert p.v == q.v by { assert Get(p, V) == Get(q, V); }
    assert p.w == q.w by { assert Get(p, W) == Get(q, W); }
    assert p.startHidden == q.startHidden by { assert Get(p, StartHidden) == Get(q, StartHidden); }
    assert p.lifetime == q.lifetime by { assert Get(p, Lifetime) == Get(q, Lifetime); }
    assert p.radius == q.radius by { assert Get(p, Radius) == Get(q, Radius); }
    assert p.incline == q.incline by { assert Get(p, Incline) == Get(q, Incline); }
    assert p.azimuth == q.azimuth by { assert Get(p, Azimuth) == Get(q, Azimuth); }
    assert p.friction == q.friction by { assert Get(p, Friction) == Get(q, Friction); }
    assert p.bounciness == q.bounciness by { assert Get(p, Bounciness) == Get(q, Bounciness); }
    assert p.collisionShape == q.collisionShape by { assert Get(p, CollisionShape) == Get(q, CollisionShape); }
  }

  /** Assigning the same value twice is assigning it once. */
  lemma ApplyIdempotent(p: ProjectileProps, e: Edit)
    ensures Apply(Apply(p, e), e) == Apply(p, e)
  {
    var a := Apply(p, e);
    var b := Apply(a, e);
    ApplyReadsBack(p, e);
    ApplyReadsBack(a, e);
    forall f
      ensures Get(b, f) == Get(a, f)
    {
    }
    Extensionality(b, a);
  }

  /** A frame below 1 is stored as 1 and a negative lifetime as 0, while an
      instance count of any sign is stored as given. */
  lemma BoundsOnAssignment(p: ProjectileProps, i: int)
    ensures Apply(p, SetStartFrame(i)).startFrame == (if i < 1 then 1 else i)
    ensures Apply(p, SetEndFrame(i)).endFrame == (if i < 1 then 1 else i)
    ensures Apply(p, SetLifetime(i)).lifetime == (if i < 0 then 0 else i)
    ensures Apply(p, SetInstanceCount(i)).instanceCount == i
  {
    ApplyReadsBack(p, SetStartFrame(i));
    ApplyReadsBack(p, SetEndFrame(i));
    ApplyReadsBack(p, SetLifetime(i));
    assert Get(Apply(p, SetStartFrame(i)), StartFrame) == VInt(ClampMin(i, 1));
    assert Get(Apply(p, SetEndFrame(i)), EndFrame) == VInt(ClampMin(i, 1));
    assert Get(Apply(p, SetLifetime(i)), Lifetime) == VInt(ClampMin(i, 0));
  }

  // ---------------------------------------------------------------------
  // `enum_prop_to_py`

  /** An item of a Blender enum property's `enum_items`. */
  datatype EnumItem = EnumItem(identifier: string, name: string, description: string, icon: string, value: int)

  /** The Python tuple `(identifier, name, description, icon, value)`. */
  type ItemTuple = (string, string, string, string, int)

  function ToTuple(item: EnumItem): ItemTuple {
    (item.identifier, item.name, item.description, item.icon, item.value)
  }

  function FromTuple(t: ItemTuple): EnumItem {
    EnumItem(t.0, t.1, t.2, t.3, t.4)
  }

  /** No field is lost: the tuple gives the item back. */
  lemma TupleRoundTrip(item: EnumItem)
    ensures FromTuple(ToTuple(item)) == item
  {
  }

  /** `enum_prop_to_py(enum_prop)`: one tuple per item, in the items' order. */
  method EnumPropToPy(items: seq<EnumItem>) returns (r: seq<ItemTuple>)
    ensures |r| == |items|
    ensures forall i :: 0 <= i < |items| ==> FromTuple(r[i]) == items[i]
  {
    r := [];
    for k := 0 to |items|
      invariant |r| == k
      invariant forall i :: 0 <= i < k ==> FromTuple(r[i]) == items[i]
    {
      r := r + [ToTuple(items[k])];
    }
  }

  // ---------------------------------------------------------------------
  // `ProjectileSettings`

  /** `(identifier, name, description)` items of a static enum. */
  type StaticItem = (string, string, string)

  const DrawTrajectoriesItems: seq<StaticItem> := [
    ("all", "All", "Draw trajectories for all emitters"),
    ("selected", "Selected", "Draw trajectories for selected emitters"),
    ("none", "None", "Do not draw trajectories")]

  const QualityItems: seq<StaticItem> := [
    ("very_low", "Particle", "Very low quality can help with instancing that behaves like particles"),
    ("low", "Low", "Use low quality solver settings"),
    ("medium", "Medium", "Use medium quality solver settings"),
    ("high", "High", "Use high quality solver settings")]

  function Identifiers(items: seq<StaticItem>): (ids: seq<string>)
    ensures |ids| == |items|
    ensures forall i :: 0 <= i < |items| ==> ids[i] == items[i].0
  {
    seq(|items|, i requires 0 <= i < |items| => items[i].0)
  }

  /** The scene settings. The enums are kept as their identifier strings. */
  datatype Settings = Settings(drawTrajectories: string, quality: string, spherical: bool)

  const DefaultSettings := Settings("selected", "very_low", true)

  /** Each default is one of its enum's identifiers, and the identifiers of
      each enum are distinct. */
  lemma DefaultSettingsAreItems()
    ensures DefaultSettings.drawTrajectories in Identifiers(DrawTrajectoriesItems)
    ensures DefaultSettings.quality in Identifiers(QualityItems)
    ensures DefaultSettings.spherical
    ensures forall i, j :: 0 <= i < j < |DrawTrajectoriesItems| ==>
              Identifiers(DrawTrajectoriesItems)[i] != Identifiers(DrawTrajectoriesItems)[j]
    ensures forall i, j :: 0 <= i < j < |QualityItems| ==>
              Identifiers(QualityItems)[i] != Identifiers(QualityItems)[j]
  {
    assert Identifiers(DrawTrajectoriesItems) == ["all", "selected", "none"];
    assert Identifiers(QualityItems) == ["very_low", "low", "medium", "high"];
  }
}

=== FILE: scene.dfy ===
/** The part of the host scene the add-on's state machines read and write:
    the objects' `projectile_props`, the active object and the current
    frame. Objects are numbered by their position in `scene.objects`, which
    is also the order the operators iterate in. */
module Scenes {
  import opened Wrappers
  import opened CustomProps
  import opened Props

  datatype Scene = Scene(objects: seq<ProjectileProps>, active: Option<ObjectId>, frameCurrent: int)

  /** `context.object`: the active object, when there is one. */
  function ActiveObject(s: Scene): (a: Option<ObjectId>)
    ensures a.Some? ==> a.value < |s.objects| && s.active == a
    ensures a.None? <==> s.active.None? || s.active.value >= |s.objects|
  {
    if s.active.Some? && s.active.value < |s.objects| then s.active else None
  }

  /** Making an object of the scene active, as `execute_all` does before
      each `execute`, is what `context.object` then reads; the lookup only
      depends on the active object and the number of objects. */
  lemma SelectThenLookUp(s: Scene, o: ObjectId, t: Scene)
    requires o < |s.objects|
    requires |t.objects| == |s.objects| && t.active == s.active
    ensures ActiveObject(s.(active := Some(o))) == Some(o)
    ensures ActiveObject(t) == ActiveObject(s)
  {
  }

  /** The assignment `e` on object `o`'s `projectile_props`, without its
      update hooks. */
  function EditObject(s: Scene, o: ObjectId, e: Edit): (r: Scene)
    requires o < |s.objects|
    ensures |r.objects| == |s.objects| && r.active == s.active && r.frameCurrent == s.frameCurrent
    ensures r.objects[o] == Apply(s.objects[o], e)
    ensures forall i :: 0 <= i < |s.objects| && i != o ==> r.objects[i] == s.objects[i]
  {
    s.(objects := s.objects[o := Apply(s.objects[o], e)])
  }

  /** Emitter `o` has settings that differ from its instances. */
  predicate DirtyEmitter(s: Scene, o: ObjectId)
    requires o < |s.objects|
  {
    s.objects[o].isEmitter && s.objects[o].isDirty
  }
}

=== FILE: scheduler.dfy ===
/** The spawn/retire schedule of `PHYSICS_OT_projectile_execute.execute` in
    `projectile/ops.py`.

    The operator computes which frames spawn an instance, then walks the
    frames `start..end` once. On a spawn frame it takes the most recently
    pooled instance, or creates a new object when the pool is empty, and
    appends it to the queue of live instances. Then, in the same frame, the
    oldest live instance is retired to the pool when it has a lifetime and
    that lifetime ends on this frame. The keyframes the Python inserts are
    host data; the model records what happens as a trace of events. */
module Scheduler {
  import opened Wrappers
  import opened CustomProps
  import opened Instances

  /** `step = frames / number` with `number == 0`. */
  datatype ScheduleError = ZeroDivisionError

  function Min(a: int, b: int): int {
    if a <= b then a else b
  }

  /** `number = min(frames, instance_count)`: at most one instance per frame
      of the range. */
  function SpawnCount(start: int, end: int, count: int): int {
    Min(end - start, count)
  }

  predicate StrictlyIncreasing(s: seq<int>) {
    forall i, j :: 0 <= i < j < |s| ==> s[i] < s[j]
  }

  /** `start + int(i * step)` for `i` in `range(number)`, with `step =
      frames / number`, computed with exact integer floor division. A
      negative `number` gives an empty range; zero divides by zero. */
  function SpawnFrames(start: int, end: int, count: int): (r: Result<seq<int>, ScheduleError>)
    ensures r.Err? <==> SpawnCount(start, end, count) == 0
    ensures r.Ok? && SpawnCount(start, end, count) > 0 ==> |r.value| == SpawnCount(start, end, count)
    ensures r.Ok? && SpawnCount(start, end, count) < 0 ==> r.value == []
    ensures r.Ok? ==> StrictlyIncreasing(r.value)
    ensures r.Ok? ==> forall i :: 0 <= i < |r.value| ==> start <= r.value[i] < end
  {
    var frames := end - start;
    var number := SpawnCount(start, end, count);
    if number == 0 then Err(ZeroDivisionError)
    else if number < 0 then Ok([])
    else
      var r := seq(number, i requires 0 <= i < number => start + (i * frames) / number);
      assert forall i, j :: 0 <= i < j < number ==> r[i] < r[j] by {
        forall i, j | 0 <= i < j < number
          ensures r[i] < r[j]
        {
          FloorStepIncreases(i, j, frames, number);
        }
      }
      assert forall i :: 0 <= i < number ==> start <= r[i] < end by {
        forall i | 0 <= i < number
          ensures start <= r[i] < end
        {
          FloorStepBelow(i, frames, number);
        }
      }
      Ok(r)
  }

  /** With at least as many frames as instances the floor of `i·f/n` grows
      with `i` by at least one per step. */
  lemma FloorStepIncreases(i: int, j: int, f: int, n: int)
    requires 0 <= i < j && 0 < n <= f
    ensures 0 <= (i * f) / n < (j * f) / n
  {
    MulGrows(i, j, f);
    DivLowerStep(i * f, j * f, n);
  }

  /** Products of a positive factor with `i < j` are at least that factor apart. */
  lemma MulGrows(i: int, j: int, f: int)
    requires 0 <= i < j && 0 < f
    ensures 0 <= i * f && i * f + f <= j * f
  {
    var d := j - i - 1;
    assert j * f == i * f + f + d * f;
  }

  /** A non-positive factor keeps a product with a positive one non-positive. */
  lemma MulSign(n: int, d: int)
    requires n > 0
    ensures d <= 0 ==> n * d <= 0
  {
  }

  /** Euclidean division: `n·(a / n) <= a < n·(a / n) + n`. */
  lemma DivBounds(a: int, n: int)
    requires 0 < n
    ensures n * (a / n) <= a < n * (a / n) + n
  {
  }

  /** `a + n <= b` moves the floor quotient up by at least one. */
  lemma DivLowerStep(a: int, b: int, n: int)
    requires 0 <= a && 0 < n && a + n <= b
    ensures 0 <= a / n < b / n
  {
    var qa := a / n;
    var qb := b / n;
    DivBounds(a, n);
    DivBounds(b, n);
    assert n * (qa + 1) == n * qa + n;
    MulSign(n, qa + 1);
    assert n * (qb - qa) == n * qb - n * qa;
    MulSign(n, qb - qa);
  }

  /** For `i < n` the floor of `i·f/n` stays below `f`. */
  lemma FloorStepBelow(i: int, f: int, n: int)
    requires 0 <= i < n && 0 < n <= f
    ensures 0 <= (i * f) / n < f
  {
    MulGrows(i, n, f);
    var a := i * f;
    var q := a / n;
    DivBounds(a, n);
    assert n * (q + 1) == n * q + n;
    MulSign(n, q + 1);
    assert f * n == n * f;
    assert n * (f - q) == n * f - n * q;
    MulSign(n, f - q);
  }

  /** What happened, in order: a spawn of object `obj` (taken from the pool
      when `reused`), or the retirement of `obj` to the pool. */
  datatype Event = Spawned(frame: int, obj: ObjectId, reused: bool) | Retired(frame: int, obj: ObjectId)

  /** The operator's local state: the queue `instances` (oldest first), the
      stack `pool` (most recent last), the number of objects created so far
      (they are numbered from 0) and the trace of events. */
  datatype State = State(live: seq<Instance>, pool: seq<Instance>, created: nat, trace: seq<Event>)

  const Initial := State([], [], 0, [])

  /** The spawn branch of one frame: pop the pool, or create an object when
      it is empty; initialise it at `frame` and append it to the queue. */
  function SpawnAt(s: State, frame: int, lifetime: int): State {
    if |s.pool| > 0 then
      var inst := s.pool[|s.pool| - 1];
      State(s.live + [Initialize(inst, frame)], s.pool[..|s.pool| - 1], s.created,
            s.trace + [Spawned(frame, inst.obj, true)])
    else
      var inst := New(s.created, lifetime);
      State(s.live + [Initialize(inst, frame)], s.pool, s.created + 1,
            s.trace + [Spawned(frame, inst.obj, false)])
  }

  /** `instances and instances[0].lifetime and instances[0].end_frame == frame`. */
  predicate RetiresAt(s: State, frame: int) {
    |s.live| > 0 && s.live[0].lifetime != 0 && s.live[0].endFrame == frame
  }

  /** The retire branch: the oldest live instance moves to the pool. */
  function RetireHead(s: State, frame: int): State
    requires |s.live| > 0
  {
    State(s.live[1..], s.pool + [s.live[0]], s.created, s.trace + [Retired(frame, s.live[0].obj)])
  }

  /** One iteration of the frame loop: the spawn check, then the retire check. */
  function Step(s: State, frame: int, frames: seq<int>, lifetime: int): State {
    var s1 := if frame in frames then SpawnAt(s, frame, lifetime) else s;
    if RetiresAt(s1, frame) then RetireHead(s1, frame) else s1
  }

  /** The frame loop over `frame..end`. */
  function Run(s: State, frame: int, end: int, frames: seq<int>, lifetime: int): State
    decreases end - frame
  {
    if frame > end then s
    else Run(Step(s, frame, frames, lifetime), frame + 1, end, frames, lifetime)
  }

  /** `execute` for an emitter with the given `start_frame`, `end_frame`,
      `instance_count` and `lifetime`: the final state of the loop, or the
      division by zero raised before any instance is touched. */
  function Execute(start: int, end: int, count: int, lifetime: int): (r: Result<State, ScheduleError>)
    ensures r.Err? <==> SpawnCount(start, end, count) == 0
  {
    var frames :- SpawnFrames(start, end, count);
    Ok(Run(Initial, start, end, frames, lifetime))
  }

  // ---------------------------------------------------------------------
  // Views of the trace

  function Spawns(t: seq<Event>): (r: seq<Event>)
    ensures forall i :: 0 <= i < |r| ==> r[i].Spawned?
    decreases |t|
  {
    if |t| == 0 then []
    else Spawns(t[..|t| - 1]) + (if t[|t| - 1].Spawned? then [t[|t| - 1]] else [])
  }

  function Retires(t: seq<Event>): (r: seq<Event>)
    ensures forall i :: 0 <= i < |r| ==> r[i].Retired?
    decreases |t|
  {
    if |t| == 0 then []
    else Retires(t[..|t| - 1]) + (if t[|t| - 1].Retired? then [t[|t| - 1]] else [])
  }

  lemma ViewsAppend(t: seq<Event>, e: Event)
    ensures Spawns(t + [e]) == Spawns(t) + (if e.Spawned? then [e] else [])
    ensures Retires(t + [e]) == Retires(t) + (if e.Retired? then [e] else [])
  {
    assert (t + [e])[..|t|] == t;
  }

  function Objects(l: seq<Instance>): (r: seq<ObjectId>)
    ensures |r| == |l|
    ensures forall i :: 0 <= i < |l| ==> r[i] == l[i].obj
  {
    seq(|l|, i requires 0 <= i < |l| => l[i].obj)
  }

  lemma ObjectsAppend(a: seq<Instance>, b: seq<Instance>)
    ensures Objects(a + b) == Objects(a) + Objects(b)
  {
  }

  /** The multiset `{0, 1, ..., n-1}`. */
  function Iota(n: nat): multiset<ObjectId> {
    if n == 0 then multiset{} else Iota(n - 1) + multiset{n - 1}
  }

  lemma {:induction false} IotaCount(n: nat, o: ObjectId)
    ensures Iota(n)[o] == if o < n then 1 else 0
  {
    if n > 0 {
      IotaCount(n - 1, o);
    }
  }

  lemma {:induction false} IotaSize(n: nat)
    ensures |Iota(n)| == n
  {
    if n > 0 {
      IotaSize(n - 1);
    }
  }

  /** Every object created so far is either live or pooled, exactly once. */
  ghost predicate Conserved(s: State) {
    multiset(Objects(s.live) + Objects(s.pool)) == Iota(s.created)
  }

  /** An element equal to a later one occurs at least twice. */
  lemma PairCount(objs: seq<ObjectId>, i: nat, j: nat)
    requires i < j < |objs|
    ensures multiset(objs)[objs[i]] >= if objs[i] == objs[j] then 2 else 1
  {
    var x := objs[i];
    var a, b, c := objs[..i], objs[i + 1..j], objs[j + 1..];
    assert objs == a + [x] + b + [objs[j]] + c;
    assert multiset(objs)[x] == multiset(a)[x] + 1 + multiset(b)[x] + multiset([objs[j]])[x] + multiset(c)[x];
  }

  /** Conservation in list terms: the live and pooled objects are exactly
      `created` pairwise distinct numbers below `created`. */
  lemma ConservedDistinct(s: State)
    requires Conserved(s)
    ensures var objs := Objects(s.live) + Objects(s.pool);
            && |objs| == s.created
            && (forall i :: 0 <= i < |objs| ==> objs[i] < s.created)
            && (forall i, j :: 0 <= i < j < |objs| ==> objs[i] != objs[j])
  {
    var objs := Objects(s.live) + Objects(s.pool);
    var m := multiset(objs);
    IotaSize(s.created);
    forall i | 0 <= i < |objs|
      ensures objs[i] < s.created
    {
      assert objs[i] in m;
      IotaCount(s.created, objs[i]);
    }
    forall i, j | 0 <= i < j < |objs|
      ensures objs[i] != objs[j]
    {
      IotaCount(s.created, objs[i]);
      PairCount(objs, i, j);
    }
  }

  // ---------------------------------------------------------------------
  // The loop invariant, over the state and the spawn and retire events
  // logged so far (`sp`, `rt`), against the spawn frames `fs`

  /** The spawns so far are the spawn frames below `bound`, in order. */
  ghost predicate SpawnsOk(sp: seq<Event>, fs: seq<int>, bound: int) {
    && |sp| <= |fs|
    && (forall j :: 0 <= j < |sp| ==> sp[j].Spawned? && sp[j].frame == fs[j] && fs[j] < bound)
    && (forall j :: |sp| <= j < |fs| ==> bound <= fs[j])
  }

  /** The `j`-th retirement retires the `j`-th spawned object, `lifetime`
      frames after its spawn and before `bound`; only a positive lifetime
      retires anything. */
  ghost predicate RetiresOk(sp: seq<Event>, rt: seq<Event>, lifetime: int, bound: int) {
    && |rt| <= |sp|
    && (lifetime > 0 || |rt| == 0)
    && (forall j :: 0 <= j < |rt| ==>
          rt[j].obj == sp[j].obj && rt[j].frame == sp[j].frame + lifetime && rt[j].frame < bound)
  }

  /** The queue holds the spawned but not yet retired instances, oldest first. */
  ghost predicate LiveOk(live: seq<Instance>, sp: seq<Event>, rt: seq<Event>, lifetime: int) {
    && |live| + |rt| == |sp|
    && (forall j :: 0 <= j < |live| ==>
          live[j] == Instance(sp[|rt| + j].obj, lifetime, sp[|rt| + j].frame, sp[|rt| + j].frame + lifetime))
  }

  /** The pool only holds retired instances, and an object is reused only
      after some instance retired. */
  ghost predicate PoolOk(s: State, sp: seq<Event>, rt: seq<Event>, lifetime: int) {
    && |s.pool| <= |rt|
    && (forall j :: 0 <= j < |s.pool| ==> s.pool[j].lifetime == lifetime)
    && (|rt| == 0 ==> forall j :: 0 <= j < |sp| && sp[j].Spawned? ==> !sp[j].reused)
    && Conserved(s)
  }

  /** With a lifetime, no live instance has missed its end frame. */
  ghost predicate NoneOverdue(live: seq<Instance>, lifetime: int, bound: int) {
    lifetime > 0 ==> forall j :: 0 <= j < |live| ==> bound <= live[j].endFrame
  }

  ghost predicate InvOn(s: State, sp: seq<Event>, rt: seq<Event>, sbound: int, rbound: int, fs: seq<int>, lifetime: int) {
    && SpawnsOk(sp, fs, sbound)
    && RetiresOk(sp, rt, lifetime, rbound)
    && LiveOk(s.live, sp, rt, lifetime)
    && PoolOk(s, sp, rt, lifetime)
    && NoneOverdue(s.live, lifetime, rbound)
  }

  /** The state at the top of the loop, before `frame` is processed. */
  ghost predicate Inv(s: State, frame: int, fs: seq<int>, lifetime: int) {
    InvOn(s, Spawns(s.trace), Retires(s.trace), frame, frame, fs, lifetime)
  }

  lemma InitialInv(frame: int, fs: seq<int>, lifetime: int)
    requires forall j :: 0 <= j < |fs| ==> frame <= fs[j]
    ensures Inv(Initial, frame, fs, lifetime)
  {
    assert multiset(Objects([]) + Objects([])) == multiset{};
  }

  /** The spawn event `SpawnAt` logs. */
  lemma SpawnAtTrace(s: State, frame: int, lifetime: int)
    ensures var s1 := SpawnAt(s, frame, lifetime);
            && s1.trace == s.trace + [Spawned(frame, s1.live[|s.live|].obj, |s.pool| > 0)]
            && Spawns(s1.trace) == Spawns(s.trace) + [Spawned(frame, s1.live[|s.live|].obj, |s.pool| > 0)]
            && Retires(s1.trace) == Retires(s.trace)
  {
    var s1 := SpawnAt(s, frame, lifetime);
    ViewsAppend(s.trace, Spawned(frame, s1.live[|s.live|].obj, |s.pool| > 0));
  }

  /** The retire event `RetireHead` logs. */
  lemma RetireHeadTrace(s: State, frame: int)
    requires |s.live| > 0
    ensures var s2 := RetireHead(s, frame);
            && s2.trace == s.trace + [Retired(frame, s.live[0].obj)]
            && Spawns(s2.trace) == Spawns(s.trace)
            && Retires(s2.trace) == Retires(s.trace) + [Retired(frame, s.live[0].obj)]
  {
    ViewsAppend(s.trace, Retired(frame, s.live[0].obj));
  }

  /** `frame` is a spawn frame exactly when it is the next one not yet spawned. */
  lemma NextSpawn(sp: seq<Event>, fs: seq<int>, frame: int)
    requires StrictlyIncreasing(fs)
    requires SpawnsOk(sp, fs, frame)
    ensures frame in fs <==> |sp| < |fs| && fs[|sp|] == frame
  {
    assert |sp| < |fs| ==> frame <= fs[|sp|];
    if frame in fs {
      var k :| 0 <= k < |fs| && fs[k] == frame;
      assert k == |sp|;
    }
  }

  lemma SpawnConserves(s: State, frame: int, lifetime: int)
    requires Conserved(s)
    ensures Conserved(SpawnAt(s, frame, lifetime))
  {
    if |s.pool| > 0 {
      ReuseConserves(s, frame, lifetime);
    } else {
      CreateConserves(s, frame, lifetime);
    }
  }

  lemma ReuseConserves(s: State, frame: int, lifetime: int)
    requires Conserved(s) && |s.pool| > 0
    ensures Conserved(SpawnAt(s, frame, lifetime))
  {
    var s1 := SpawnAt(s, frame, lifetime);
    var n := |s.pool|;
    var inst := s.pool[n - 1];
    var a := Objects(s.live);
    var p := Objects(s.pool[..n - 1]);
    var o := inst.obj;
    assert s.pool == s.pool[..n - 1] + [inst];
    ObjectsAppend(s.pool[..n - 1], [inst]);
    assert Objects(s.pool) == p + [o];
    ObjectsAppend(s.live, [Initialize(inst, frame)]);
    assert Objects(s1.live) == a + [o];
    assert multiset(a + [o] + p) == multiset(a) + multiset{o} + multiset(p);
    assert multiset(a + (p + [o])) == multiset(a) + multiset(p) + multiset{o};
  }

  lemma CreateConserves(s: State, frame: int, lifetime: int)
    requires Conserved(s) && |s.pool| == 0
    ensures Conserved(SpawnAt(s, frame, lifetime))
  {
    var s1 := SpawnAt(s, frame, lifetime);
    var a := Objects(s.live);
    ObjectsAppend(s.live, [Initialize(New(s.created, lifetime), frame)]);
    assert Objects(s1.live) == a + [s.created];
    assert Objects(s.pool) == [] && Objects(s1.pool) == [];
    assert a + [s.created] + [] == a + [s.created];
    assert a + [] == a;
  }

  lemma RetireConserves(s: State, frame: int)
    requires Conserved(s) && |s.live| > 0
    ensures Conserved(RetireHead(s, frame))
  {
    var h := s.live[0];
    assert s.live == [h] + s.live[1..];
    ObjectsAppend([h], s.live[1..]);
    ObjectsAppend(s.pool, [h]);
  }

  /** The spawn branch on the next spawn frame keeps the invariant, with the
      new spawn logged. */
  lemma SpawnKeeps(s: State, sp: seq<Event>, rt: seq<Event>, frame: int, fs: seq<int>, lifetime: int)
    requires StrictlyIncreasing(fs)
    requires InvOn(s, sp, rt, frame, frame, fs, lifetime)
    requires |sp| < |fs| && fs[|sp|] == frame
    ensures var s1 := SpawnAt(s, frame, lifetime);
            InvOn(s1, sp + [Spawned(frame, s1.live[|s.live|].obj, |s.pool| > 0)], rt, frame + 1, frame, fs, lifetime)
  {
    var s1 := SpawnAt(s, frame, lifetime);
    var sp1 := sp + [Spawned(frame, s1.live[|s.live|].obj, |s.pool| > 0)];
    SpawnKeepsSpawns(sp, sp1, frame, fs);
    SpawnKeepsLive(s, sp, rt, frame, lifetime);
    SpawnConserves(s, frame, lifetime);
    assert RetiresOk(sp1, rt, lifetime, frame) by {
      assert forall j :: 0 <= j < |rt| ==> sp1[j] == sp[j];
    }
  }

  lemma SpawnKeepsSpawns(sp: seq<Event>, sp1: seq<Event>, frame: int, fs: seq<int>)
    requires StrictlyIncreasing(fs)
    requires SpawnsOk(sp, fs, frame)
    requires |sp| < |fs| && fs[|sp|] == frame
    requires |sp1| == |sp| + 1 && sp1[..|sp|] == sp && sp1[|sp|].Spawned? && sp1[|sp|].frame == frame
    ensures SpawnsOk(sp1, fs, frame + 1)
  {
    forall j | 0 <= j < |sp|
      ensures sp1[j] == sp[j]
    {
      assert sp1[..|sp|][j] == sp1[j];
    }
    forall j | |sp1| <= j < |fs|
      ensures frame + 1 <= fs[j]
    {
      assert fs[|sp|] < fs[j];
    }
  }

  lemma SpawnKeepsLive(s: State, sp: seq<Event>, rt: seq<Event>, frame: int, lifetime: int)
    requires LiveOk(s.live, sp, rt, lifetime) && PoolOk(s, sp, rt, lifetime)
    requires NoneOverdue(s.live, lifetime, frame)
    ensures var s1 := SpawnAt(s, frame, lifetime);
            var sp1 := sp + [Spawned(frame, s1.live[|s.live|].obj, |s.pool| > 0)];
            && LiveOk(s1.live, sp1, rt, lifetime)
            && NoneOverdue(s1.live, lifetime, frame)
            && |s1.pool| <= |rt|
            && (forall j :: 0 <= j < |s1.pool| ==> s1.pool[j].lifetime == lifetime)
            && (|rt| == 0 ==> forall j :: 0 <= j < |sp1| && sp1[j].Spawned? ==> !sp1[j].reused)
  {
    var s1 := SpawnAt(s, frame, lifetime);
    var sp1 := sp + [Spawned(frame, s1.live[|s.live|].obj, |s.pool| > 0)];
    var r := |rt|;
    assert |s.pool| > 0 ==> s.pool[|s.pool| - 1].lifetime == lifetime;
    var last := s1.live[|s.live|];
    assert last == Instance(sp1[r + |s.live|].obj, lifetime, frame, frame + lifetime);
    forall j | 0 <= j < |s1.live|
      ensures s1.live[j] == Instance(sp1[r + j].obj, lifetime, sp1[r + j].frame, sp1[r + j].frame + lifetime)
    {
      if j < |s.live| {
        assert s1.live[j] == s.live[j] && sp1[r + j] == sp[r + j];
      }
    }
    assert |rt| == 0 ==> |s.pool| == 0;
  }

  /** The retire branch keeps the invariant, now for the next frame, with
      the retirement logged. */
  lemma RetireKeeps(s: State, sp: seq<Event>, rt: seq<Event>, frame: int, fs: seq<int>, lifetime: int)
    requires StrictlyIncreasing(fs)
    requires InvOn(s, sp, rt, frame + 1, frame, fs, lifetime)
    requires RetiresAt(s, frame)
    ensures InvOn(RetireHead(s, frame), sp, rt + [Retired(frame, s.live[0].obj)], frame + 1, frame + 1, fs, lifetime)
  {
    var r := |rt|;
    var h := s.live[0];
    var s2 := RetireHead(s, frame);
    var rt2 := rt + [Retired(frame, h.obj)];
    assert h.endFrame == sp[r].frame + lifetime && sp[r].frame == fs[r] && fs[r] < frame + 1;
    assert lifetime > 0;
    assert RetiresOk(sp, rt2, lifetime, frame + 1);
    assert LiveOk(s2.live, sp, rt2, lifetime) by {
      forall j | 0 <= j < |s2.live|
        ensures s2.live[j] == Instance(sp[r + 1 + j].obj, lifetime, sp[r + 1 + j].frame, sp[r + 1 + j].frame + lifetime)
      {
        assert s2.live[j] == s.live[j + 1];
      }
    }
    assert NoneOverdue(s2.live, lifetime, frame + 1) by {
      forall j | 0 <= j < |s2.live|
        ensures frame + 1 <= s2.live[j].endFrame
      {
        assert s2.live[j] == s.live[j + 1];
        assert fs[r] < fs[r + j + 1];
      }
    }
    RetireConserves(s, frame);
  }

  /** Without a retirement the invariant carries over to the next frame. */
  lemma NoRetireKeeps(s: State, sp: seq<Event>, rt: seq<Event>, frame: int, fs: seq<int>, lifetime: int)
    requires StrictlyIncreasing(fs)
    requires InvOn(s, sp, rt, frame + 1, frame, fs, lifetime)
    requires !RetiresAt(s, frame)
    ensures InvOn(s, sp, rt, frame + 1, frame + 1, fs, lifetime)
  {
    var r := |rt|;
    forall j | 0 <= j < |s.live| && lifetime > 0
      ensures frame + 1 <= s.live[j].endFrame
    {
      assert s.live[j].endFrame == fs[r + j] + lifetime;
      assert s.live[0].endFrame == fs[r] + lifetime;
      assert fs[r] <= fs[r + j];
    }
  }

  lemma StepInv(s: State, frame: int, fs: seq<int>, lifetime: int)
    requires StrictlyIncreasing(fs)
    requires Inv(s, frame, fs, lifetime)
    ensures Inv(Step(s, frame, fs, lifetime), frame + 1, fs, lifetime)
  {
    var sp := Spawns(s.trace);
    var rt := Retires(s.trace);
    NextSpawn(sp, fs, frame);
    var s1 := if frame in fs then SpawnAt(s, frame, lifetime) else s;
    if frame in fs {
      SpawnAtTrace(s, frame, lifetime);
      SpawnKeeps(s, sp, rt, frame, fs, lifetime);
    } else {
      assert SpawnsOk(sp, fs, frame + 1);
    }
    assert InvOn(s1, Spawns(s1.trace), rt, frame + 1, frame, fs, lifetime);
    assert Retires(s1.trace) == rt;
    if RetiresAt(s1, frame) {
      RetireHeadTrace(s1, frame);
      RetireKeeps(s1, Spawns(s1.trace), rt, frame, fs, lifetime);
    } else {
      NoRetireKeeps(s1, Spawns(s1.trace), rt, frame, fs, lifetime);
    }
  }

  lemma {:induction false} RunInv(s: State, frame: int, end: int, fs: seq<int>, lifetime: int)
    requires StrictlyIncreasing(fs)
    requires frame <= end + 1
    requires Inv(s, frame, fs, lifetime)
    ensures Inv(Run(s, frame, end, fs, lifetime), end + 1, fs, lifetime)
    decreases end - frame
  {
    if frame <= end {
      StepInv(s, frame, fs, lifetime);
      RunInv(Step(s, frame, fs, lifetime), frame + 1, end, fs, lifetime);
    }
  }

  /** The final state of a successful `execute`, with its spawn frames. */
  lemma ExecuteInv(start: int, end: int, count: int, lifetime: int)
    requires Execute(start, end, count, lifetime).Ok?
    ensures Inv(Execute(start, end, count, lifetime).value, end + 1, SpawnFrames(start, end, count).value, lifetime)
  {
    var fs := SpawnFrames(start, end, count).value;
    InitialInv(start, fs, lifetime);
    assert start <= end + 1 || fs == [];
    if start <= end + 1 {
      RunInv(Initial, start, end, fs, lifetime);
    }
  }

  // ---------------------------------------------------------------------
  // Properties of `execute`

  /** One activation per spawn frame: the spawn events are exactly the spawn
      frames, in order. */
  lemma ExecuteSpawnsEachFrameOnce(start: int, end: int, count: int, lifetime: int)
    requires Execute(start, end, count, lifetime).Ok?
    ensures var sp := Spawns(Execute(start, end, count, lifetime).value.trace);
            var fs := SpawnFrames(start, end, count).value;
            |sp| == |fs| && forall j :: 0 <= j < |sp| ==> sp[j].frame == fs[j]
  {
    ExecuteInv(start, end, count, lifetime);
    var sp := Spawns(Execute(start, end, count, lifetime).value.trace);
    var fs := SpawnFrames(start, end, count).value;
    assert |fs| > 0 ==> fs[|fs| - 1] < end;
  }

  /** Retirement is first in, first out: the `j`-th retirement retires the
      object of the `j`-th spawn, exactly `lifetime` frames after it, so
      retirements happen on strictly increasing frames. The `k`-th spawned
      instance is retired if and only if there is a lifetime and its end
      frame is within `end`. */
  lemma ExecuteRetiresFifo(start: int, end: int, count: int, lifetime: int)
    requires Execute(start, end, count, lifetime).Ok?
    ensures var t := Execute(start, end, count, lifetime).value.trace;
            var sp := Spawns(t);
            var rt := Retires(t);
            && |rt| <= |sp|
            && (forall j :: 0 <= j < |rt| ==> rt[j].obj == sp[j].obj && rt[j].frame == sp[j].frame + lifetime)
            && (forall i, j :: 0 <= i < j < |rt| ==> rt[i].frame < rt[j].frame)
            && (forall k :: 0 <= k < |sp| ==> (k < |rt| <==> lifetime > 0 && sp[k].frame + lifetime <= end))
  {
    ExecuteInv(start, end, count, lifetime);
    var s := Execute(start, end, count, lifetime).value;
    var fs := SpawnFrames(start, end, count).value;
    var sp := Spawns(s.trace);
    var rt := Retires(s.trace);
    forall i, j | 0 <= i < j < |rt|
      ensures rt[i].frame < rt[j].frame
    {
      assert fs[i] < fs[j];
    }
    forall k | 0 <= k < |sp|
      ensures k < |rt| <==> lifetime > 0 && sp[k].frame + lifetime <= end
    {
      assert k >= |rt| && lifetime > 0 ==> s.live[k - |rt|].endFrame == sp[k].frame + lifetime;
    }
  }

  /** Without a lifetime nothing is retired, the pool stays empty and every
      spawn creates a new object: exactly one object per spawn frame. */
  lemma ExecuteWithoutLifetime(start: int, end: int, count: int)
    requires Execute(start, end, count, 0).Ok?
    ensures var s := Execute(start, end, count, 0).value;
            && Retires(s.trace) == []
            && s.pool == []
            && s.created == |SpawnFrames(start, end, count).value|
            && forall j :: 0 <= j < |Spawns(s.trace)| ==> !Spawns(s.trace)[j].reused
  {
    ExecuteInv(start, end, count, 0);
    ExecuteSpawnsEachFrameOnce(start, end, count, 0);
    var s := Execute(start, end, count, 0).value;
    ConservedDistinct(s);
  }

  /** An object is never live twice, nor live and pooled at once: the
      objects of the queue and the pool are pairwise distinct, and together
      they are all the objects created. */
  lemma ExecuteNoObjectTwice(start: int, end: int, count: int, lifetime: int)
    requires Execute(start, end, count, lifetime).Ok?
    ensures var s := Execute(start, end, count, lifetime).value;
            var objs := Objects(s.live) + Objects(s.pool);
            && |objs| == s.created
            && (forall i :: 0 <= i < |objs| ==> objs[i] < s.created)
            && (forall i, j :: 0 <= i < j < |objs| ==> objs[i] != objs[j])
  {
    ExecuteInv(start, end, count, lifetime);
    ConservedDistinct(Execute(start, end, count, lifetime).value);
  }

  /** Within a frame the spawn check runs before the retire check: when both
      fire, the spawn is logged first, it takes from the pool as it was
      before the frame (creating an object if that was empty), and the
      instance retiring in the same frame is a different object, pooled for
      later frames. */
  lemma SpawnBeforeRetire(s: State, frame: int, fs: seq<int>, lifetime: int)
    requires StrictlyIncreasing(fs)
    requires Inv(s, frame, fs, lifetime)
    requires frame in fs
    requires RetiresAt(SpawnAt(s, frame, lifetime), frame)
    ensures var s2 := Step(s, frame, fs, lifetime);
            && |s2.trace| == |s.trace| + 2
            && s2.trace[|s.trace|].Spawned? && s2.trace[|s.trace| + 1].Retired?
            && s2.trace[|s.trace|].reused == (|s.pool| > 0)
            && s2.trace[|s.trace|].obj != s2.trace[|s.trace| + 1].obj
            && s2.pool[|s2.pool| - 1].obj == s2.trace[|s.trace| + 1].obj
  {
    var s1 := SpawnAt(s, frame, lifetime);
    SpawnConserves(s, frame, lifetime);
    ConservedDistinct(s1);
    var n := |s1.live|;
    assert s1.live[n - 1].endFrame == frame + lifetime && s1.live[n - 1].lifetime == s1.live[0].lifetime;
    var objs := Objects(s1.live) + Objects(s1.pool);
    assert objs[0] == s1.live[0].obj && objs[n - 1] == s1.live[n - 1].obj;
  }

  /** A worked schedule: frames 1..3, two instances, lifetime 1. The first
      instance retires on frame 2, the very frame the second spawns, so the
      second spawn cannot reuse it and creates a second object. */
  lemma SameFrameRetireIsNotReused()
    ensures Execute(1, 3, 2, 1) == Ok(State(
      [],
      [Instance(0, 1, 1, 2), Instance(1, 1, 2, 3)],
      2,
      [Spawned(1, 0, false), Spawned(2, 1, false), Retired(2, 0), Retired(3, 1)]))
  {
    var fs := SpawnFrames(1, 3, 2).value;
    assert fs == [1, 2];
    var s1 := Step(Initial, 1, fs, 1);
    assert s1 == State([Instance(0, 1, 1, 2)], [], 1, [Spawned(1, 0, false)]);
    var s2 := Step(s1, 2, fs, 1);
    assert s2 == State([Instance(1, 1, 2, 3)], [Instance(0, 1, 1, 2)], 2,
                       [Spawned(1, 0, false), Spawned(2, 1, false), Retired(2, 0)]);
    var s3 := Step(s2, 3, fs, 1);
    assert s3 == State([], [Instance(0, 1, 1, 2), Instance(1, 1, 2, 3)], 2,
                       [Spawned(1, 0, false), Spawned(2, 1, false), Retired(2, 0), Retired(3, 1)]);
    assert Run(s3, 4, 3, fs, 1) == s3;
  }

  // ---------------------------------------------------------------------
  // The pool is a stack

  /** The pool as the trace implies it when the pool is a stack: a
      retirement pushes the retired object, and a reusing spawn pops the most
      recently pushed one. */
  function Pooled(t: seq<Event>): seq<ObjectId>
    decreases |t|
  {
    if |t| == 0 then []
    else
      var p := Pooled(t[..|t| - 1]);
      PoolAfter(p, t[|t| - 1])
  }

  /** One event's effect on the pool. */
  function PoolAfter(p: seq<ObjectId>, e: Event): seq<ObjectId> {
    if e.Retired? then p + [e.obj]
    else if e.reused && |p| > 0 then p[..|p| - 1]
    else p
  }

  /** Every spawn of the trace reused an object exactly when one was pooled,
      and then took the most recently retired object not yet reused. */
  predicate LastInFirstOut(t: seq<Event>) {
    forall k :: 0 <= k < |t| && t[k].Spawned? ==>
      var p := Pooled(t[..k]);
      (t[k].reused <==> |p| > 0) && (t[k].reused ==> t[k].obj == p[|p| - 1])
  }

  predicate PoolInv(s: State) {
    Objects(s.pool) == Pooled(s.trace) && LastInFirstOut(s.trace)
  }

  lemma PooledAppend(t: seq<Event>, e: Event)
    ensures (t + [e])[..|t|] == t
    ensures forall k :: 0 <= k <= |t| ==> (t + [e])[..k] == t[..k]
    ensures Pooled(t + [e]) == PoolAfter(Pooled(t), e)
  {
    assert (t + [e])[..|t|] == t;
  }

  lemma SpawnPoolInv(s: State, frame: int, lifetime: int)
    requires PoolInv(s)
    ensures PoolInv(SpawnAt(s, frame, lifetime))
  {
    var s1 := SpawnAt(s, frame, lifetime);
    var e := s1.trace[|s.trace|];
    assert s1.trace == s.trace + [e];
    PooledAppend(s.trace, e);
    assert Objects(s1.pool) == Pooled(s1.trace);
    forall k | 0 <= k < |s1.trace| && s1.trace[k].Spawned?
      ensures var p := Pooled(s1.trace[..k]);
              (s1.trace[k].reused <==> |p| > 0) && (s1.trace[k].reused ==> s1.trace[k].obj == p[|p| - 1])
    {
      if k < |s.trace| {
        assert s1.trace[k] == s.trace[k];
      }
    }
  }

  lemma RetirePoolInv(s: State, frame: int)
    requires |s.live| > 0
    requires PoolInv(s)
    ensures PoolInv(RetireHead(s, frame))
  {
    var s1 := RetireHead(s, frame);
    var e := Retired(frame, s.live[0].obj);
    PooledAppend(s.trace, e);
    ObjectsAppend(s.pool, [s.live[0]]);
    forall k | 0 <= k < |s1.trace| && s1.trace[k].Spawned?
      ensures var p := Pooled(s1.trace[..k]);
              (s1.trace[k].reused <==> |p| > 0) && (s1.trace[k].reused ==> s1.trace[k].obj == p[|p| - 1])
    {
      assert k < |s.trace|;
      assert s1.trace[k] == s.trace[k];
    }
  }

  lemma {:induction false} RunPoolInv(s: State, frame: int, end: int, fs: seq<int>, lifetime: int)
    requires PoolInv(s)
    ensures PoolInv(Run(s, frame, end, fs, lifetime))
    decreases end - frame
  {
    if frame <= end {
      var s1 := if frame in fs then SpawnAt(s, frame, lifetime) else s;
      if frame in fs {
        SpawnPoolInv(s, frame, lifetime);
      }
      if RetiresAt(s1, frame) {
        RetirePoolInv(s1, frame);
      }
      RunPoolInv(Step(s, frame, fs, lifetime), frame + 1, end, fs, lifetime);
    }
  }

  /** `pool.pop()` takes the most recently pooled instance: in the trace of a
      successful `execute`, every spawn reuses an object exactly when one is
      pooled, and then it is the object retired most recently among those not
      yet reused; the final pool holds the rest, oldest first. */
  lemma ExecuteReusesLastPooled(start: int, end: int, count: int, lifetime: int)
    requires Execute(start, end, count, lifetime).Ok?
    ensures var s := Execute(start, end, count, lifetime).value;
            LastInFirstOut(s.trace) && Objects(s.pool) == Pooled(s.trace)
  {
    assert PoolInv(Initial);
    RunPoolInv(Initial, start, end, SpawnFrames(start, end, count).value, lifetime);
  }
}

=== FILE: solver.dfy ===
/** `set_quality` of `projectile/utils.py`: the rigid-body world's solver
    settings chosen from the scene's frame rate and the `quality` setting. */
module Solver {
  import opened Wrappers
  import Props

  /** The two settings of `scene.rigidbody_world` that `set_quality` writes. */
  datatype RigidBodyWorld = RigidBodyWorld(substepsPerFrame: int, solverIterations: int)

  const SolverIterations := 20

  /** Substeps per frame for each quality identifier, as a multiple of the
      frame rate; `None` for a string that is no quality identifier. */
  function SubstepFactor(quality: string): Option<int> {
    if quality == "very_low" then Some(1)
    else if quality == "low" then Some(4)
    else if quality == "medium" then Some(10)
    else if quality == "high" then Some(20)
    else None
  }

  /** Exactly the identifiers of the `quality` enum have a factor, and the
      factor grows strictly from "very_low" to "high", in the enum's order. */
  lemma FactorsFollowQualityItems()
    ensures forall q :: SubstepFactor(q).Some? <==> q in Props.Identifiers(Props.QualityItems)
    ensures var ids := Props.Identifiers(Props.QualityItems);
            forall i, j :: 0 <= i < j < |ids| ==> 0 < SubstepFactor(ids[i]).value < SubstepFactor(ids[j]).value
  {
    assert Props.Identifiers(Props.QualityItems) == ["very_low", "low", "medium", "high"];
  }

  /** `set_quality(context)`: for a known quality the substeps become the
      frame rate times its factor; for any other value they are left as
      they were. The solver iterations become 20 either way. */
  function SetQuality(rw: RigidBodyWorld, fps: int, quality: string): (r: RigidBodyWorld)
    ensures r.solverIterations == SolverIterations
    ensures quality !in Props.Identifiers(Props.QualityItems) ==> r.substepsPerFrame == rw.substepsPerFrame
    ensures quality == "very_low" ==> r.substepsPerFrame == fps
    ensures quality == "low" ==> r.substepsPerFrame == 4 * fps
    ensures quality == "medium" ==> r.substepsPerFrame == 10 * fps
    ensures quality == "high" ==> r.substepsPerFrame == 20 * fps
  {
    FactorsFollowQualityItems();
    var substeps := match SubstepFactor(quality)
      case Some(k) => fps * k
      case None => rw.substepsPerFrame;
    RigidBodyWorld(substeps, SolverIterations)
  }

  /** Setting the quality twice is setting it once, and for a known quality
      the result does not depend on the previous settings. */
  lemma SetQualityIdempotent(rw: RigidBodyWorld, other: RigidBodyWorld, fps: int, quality: string)
    ensures SetQuality(SetQuality(rw, fps, quality), fps, quality) == SetQuality(rw, fps, quality)
    ensures quality in Props.Identifiers(Props.QualityItems) ==>
              SetQuality(rw, fps, quality) == SetQuality(other, fps, quality)
  {
    FactorsFollowQualityItems();
  }

  /** At a positive frame rate a higher quality takes strictly more substeps. */
  lemma HigherQualityMoreSubsteps(rw: RigidBodyWorld, fps: int, i: int, j: int)
    requires fps > 0
    requires 0 <= i < j < |Props.QualityItems|
    ensures var ids := Props.Identifiers(Props.QualityItems);
            SetQuality(rw, fps, ids[i]).substepsPerFrame < SetQuality(rw, fps, ids[j]).substepsPerFrame
  {
    FactorsFollowQualityItems();
    var ids := Props.Identifiers(Props.QualityItems);
    var a := SubstepFactor(ids[i]).value;
    var b := SubstepFactor(ids[j]).value;
    assert ids[i] in ids && ids[j] in ids;
    assert fps * b - fps * a == fps * (b - a);
  }
}

=== FILE: trajectory.dfy ===
/** The trajectory predictor of `projectile/utils.py` (`calculate_trajectory`)
    and the concatenation `draw_trajectory` hands to the `LINES` batch.

    The scene's ray cast is an oracle: a total function from the ray the
    Python asks for (origin, target point and maximum distance; the
    normalised direction is a function of origin and target) to the host's
    answer. `math.sqrt` is a parameter as well, so the ray's maximum distance
    is stated as `sqrt` of the squared segment length. */
module Trajectory {
  import opened Wrappers
  import opened Vectors
  import opened CustomProps
  import Kinematics

  /** The emitter as the predictor sees it: its identity (for the
      self-collision test), location and launch velocity `projectile_props.v`. */
  datatype Emitter = Emitter(id: ObjectId, location: Vec3, velocity: Vec3)

  /** The arguments of one `raycast(context, origin, destination, distance)`. */
  datatype Ray = Ray(origin: Vec3, target: Vec3, maxDistance: real)

  /** The fields of `scene.ray_cast`'s answer the predictor reads: `cast[0]`
      (hit), `cast[1]` (location) and the custom properties of `cast[4]` (the
      object hit). */
  datatype CastResult = CastResult(hit: bool, location: Vec3, hitProps: Bag)

  /** Everything the predictor reads from the scene. */
  datatype Query = Query(
    physics: Kinematics.Physics,
    frameEnd: int,
    sqrt: real -> real,
    cast: Ray -> CastResult)

  /** `cast[0]` on the still-empty list when the frame loop never ran. */
  datatype TrajectoryError = IndexError

  predicate ValidQuery(q: Query) {
    q.physics.fps >= 1
  }

  /** The kinematic position of the emitter after `frame` frames. */
  function PointAt(e: Emitter, q: Query, frame: int): Vec3
    requires ValidQuery(q)
  {
    Kinematics.Displacement(e.location, e.velocity, frame, q.physics)
  }

  /** `distance_between_points`. */
  function Distance(q: Query, a: Vec3, b: Vec3): real {
    q.sqrt(DistSq(a, b))
  }

  /** The ray cast for `frame`: from the previous frame's point to this
      frame's point, bounded by the segment's length. */
  function RayAt(e: Emitter, q: Query, frame: int): Ray
    requires ValidQuery(q)
  {
    var a := PointAt(e, q, frame - 1);
    var b := PointAt(e, q, frame);
    Ray(a, b, Distance(q, a, b))
  }

  /** A cast truncates the path when it hits something that is not one of the
      emitter's own instances. */
  predicate Blocks(e: Emitter, c: CastResult) {
    c.hit && !IsEmitterInstance(e.id, c.hitProps)
  }

  predicate StopsAt(e: Emitter, q: Query, frame: int)
    requires ValidQuery(q)
  {
    Blocks(e, q.cast(RayAt(e, q, frame)))
  }

  /** The first frame in `from..frameEnd-1` whose ray is blocked, if any. */
  function FirstStop(e: Emitter, q: Query, from: int): (k: Option<int>)
    requires ValidQuery(q)
    decreases q.frameEnd - from
    ensures k.Some? ==> from <= k.value < q.frameEnd && StopsAt(e, q, k.value)
    ensures k.Some? ==> forall j :: from <= j < k.value ==> !StopsAt(e, q, j)
    ensures k.None? ==> forall j :: from <= j < q.frameEnd ==> !StopsAt(e, q, j)
  {
    if from >= q.frameEnd then None
    else if StopsAt(e, q, from) then Some(from)
    else FirstStop(e, q, from + 1)
  }

  /** The accepted points of frames `lo..hi-1`, each one twice. */
  function Pairs(e: Emitter, q: Query, lo: int, hi: int): (r: seq<Vec3>)
    requires ValidQuery(q)
    decreases hi - lo
    ensures |r| == if hi <= lo then 0 else 2 * (hi - lo)
    ensures forall i :: 0 <= i < |r| ==> r[i] == PointAt(e, q, lo + i / 2)
  {
    if hi <= lo then []
    else Pairs(e, q, lo, hi - 1) + [PointAt(e, q, hi - 1), PointAt(e, q, hi - 1)]
  }

  /** The predicted path, stated in closed form: the seed point, every frame
      before the first blocked one twice, then either the blocking hit point,
      or (when nothing blocked) the endpoint at `frameEnd` provided the last
      cast reported no hit at all. */
  function Predict(e: Emitter, q: Query): (r: Result<seq<Vec3>, TrajectoryError>)
    requires ValidQuery(q)
    ensures r.Err? <==> q.frameEnd <= 1
  {
    if q.frameEnd <= 1 then Err(IndexError)
    else
      match FirstStop(e, q, 1)
      case Some(k) =>
        Ok([PointAt(e, q, 0)] + Pairs(e, q, 1, k) + [q.cast(RayAt(e, q, k)).location])
      case None =>
        var tail := if q.cast(RayAt(e, q, q.frameEnd - 1)).hit then [] else [PointAt(e, q, q.frameEnd)];
        Ok([PointAt(e, q, 0)] + Pairs(e, q, 1, q.frameEnd) + tail)
  }

  /** Number of casts the predictor issues. */
  function CastCount(e: Emitter, q: Query): nat
    requires ValidQuery(q)
  {
    if q.frameEnd <= 1 then 0
    else
      match FirstStop(e, q, 1)
      case Some(k) => k
      case None => q.frameEnd - 1
  }

  /** `calculate_trajectory(context, emitter)`, step by step as the Python
      runs it, also returning the rays it cast. It computes `Predict`; every
      ray starts at the last point appended so far (index `2·i` of the
      result), reaches as far as that segment is long, and at most one ray is
      cast per frame. */
  method CalculateTrajectory(e: Emitter, q: Query) returns (r: Result<seq<Vec3>, TrajectoryError>, rays: seq<Ray>)
    requires ValidQuery(q)
    ensures r == Predict(e, q)
    ensures |rays| == CastCount(e, q)
    ensures forall i :: 0 <= i < |rays| ==> rays[i] == RayAt(e, q, i + 1)
    ensures r.Ok? ==> forall i :: 0 <= i < |rays| ==>
              2 * i < |r.value| && rays[i].origin == r.value[2 * i]
              && rays[i].maxDistance == Distance(q, rays[i].origin, rays[i].target)
  {
    var cast: Option<CastResult> := None;
    var coordinates := [PointAt(e, q, 0)];
    rays := [];
    var frame := 1;
    while frame < q.frameEnd
      invariant 1 <= frame
      invariant frame == 1 || frame <= q.frameEnd
      invariant coordinates == [PointAt(e, q, 0)] + Pairs(e, q, 1, frame)
      invariant |rays| == frame - 1
      invariant forall i :: 0 <= i < |rays| ==> rays[i] == RayAt(e, q, i + 1)
      invariant FirstStop(e, q, 1) == FirstStop(e, q, frame)
      invariant cast.None? <==> frame == 1
      invariant cast.Some? ==> cast.value == q.cast(RayAt(e, q, frame - 1))
    {
      var coord := PointAt(e, q, frame);
      LastAccepted(e, q, frame);
      var last := coordinates[|coordinates| - 1];
      var ray := Ray(last, coord, Distance(q, last, coord));
      assert ray == RayAt(e, q, frame);
      var c := q.cast(ray);
      rays := rays + [ray];
      cast := Some(c);
      if c.hit && !IsEmitterInstance(e.id, c.hitProps) {
        coordinates := coordinates + [c.location];
        BlockedPath(e, q, frame);
        r := Ok(coordinates);
        PathCastsFromLastPoint(e, q, r, rays);
        return;
      }
      coordinates := coordinates + [coord, coord];
      frame := frame + 1;
    }
    match cast
    case None =>
      r := Err(IndexError);
    case Some(c) =>
      CompletedPath(e, q);
      if !c.hit {
        coordinates := coordinates + [PointAt(e, q, q.frameEnd)];
      } else {
        assert coordinates == coordinates + [];
      }
      r := Ok(coordinates);
      PathCastsFromLastPoint(e, q, r, rays);
  }

  /** After the frames before `frame` were accepted, the last point is that
      of frame `frame − 1`. */
  lemma LastAccepted(e: Emitter, q: Query, frame: int)
    requires ValidQuery(q)
    requires 1 <= frame
    ensures var c := [PointAt(e, q, 0)] + Pairs(e, q, 1, frame); c[|c| - 1] == PointAt(e, q, frame - 1)
  {
    if frame > 1 {
      var p := Pairs(e, q, 1, frame);
      assert (|p| - 1) / 2 == frame - 2;
    }
  }

  /** The loop leaves through `break` at a blocked frame. */
  lemma BlockedPath(e: Emitter, q: Query, frame: int)
    requires ValidQuery(q)
    requires 1 <= frame < q.frameEnd
    requires forall j :: 1 <= j < frame ==> !StopsAt(e, q, j)
    requires StopsAt(e, q, frame)
    ensures FirstStop(e, q, 1) == Some(frame)
    ensures CastCount(e, q) == frame
    ensures Predict(e, q) == Ok([PointAt(e, q, 0)] + Pairs(e, q, 1, frame) + [q.cast(RayAt(e, q, frame)).location])
  {
  }

  /** The loop runs out of frames without a blocked one. */
  lemma CompletedPath(e: Emitter, q: Query)
    requires ValidQuery(q)
    requires 1 < q.frameEnd
    requires FirstStop(e, q, 1) == FirstStop(e, q, q.frameEnd)
    ensures FirstStop(e, q, 1) == None
    ensures CastCount(e, q) == q.frameEnd - 1
    ensures var tail := if q.cast(RayAt(e, q, q.frameEnd - 1)).hit then [] else [PointAt(e, q, q.frameEnd)];
            Predict(e, q) == Ok([PointAt(e, q, 0)] + Pairs(e, q, 1, q.frameEnd) + tail)
  {
  }

  /** The `i`-th ray starts at element `2·i` of the predicted path. */
  lemma PathCastsFromLastPoint(e: Emitter, q: Query, r: Result<seq<Vec3>, TrajectoryError>, rays: seq<Ray>)
    requires ValidQuery(q)
    requires r == Predict(e, q) && r.Ok?
    requires |rays| == CastCount(e, q)
    requires forall i :: 0 <= i < |rays| ==> rays[i] == RayAt(e, q, i + 1)
    ensures forall i :: 0 <= i < |rays| ==>
              2 * i < |r.value| && rays[i].origin == r.value[2 * i]
              && rays[i].maxDistance == Distance(q, rays[i].origin, rays[i].target)
  {
    var path := r.value;
    var stop := FirstStop(e, q, 1);
    var end := if stop.Some? then stop.value else q.frameEnd;
    var pairs := Pairs(e, q, 1, end);
    assert path[..1 + |pairs|] == [PointAt(e, q, 0)] + pairs;
    forall i | 0 <= i < |rays|
      ensures 2 * i < |path| && rays[i].origin == path[2 * i]
    {
      if i > 0 {
        assert path[2 * i] == pairs[2 * i - 1];
        assert (2 * i - 1) / 2 == i - 1;
      }
    }
  }

  /** Lengths of the predicted path: `2·frameEnd` when nothing was hit on the
      last cast and nothing blocked, `2·k` when frame `k` blocked, and
      `2·frameEnd − 1` when only the last cast hit (necessarily one of the
      emitter's own instances), since then no endpoint is appended. */
  lemma PredictLength(e: Emitter, q: Query)
    requires ValidQuery(q)
    requires q.frameEnd > 1
    ensures FirstStop(e, q, 1).Some? ==> |Predict(e, q).value| == 2 * FirstStop(e, q, 1).value
    ensures FirstStop(e, q, 1).None? && !q.cast(RayAt(e, q, q.frameEnd - 1)).hit ==>
              |Predict(e, q).value| == 2 * q.frameEnd
    ensures FirstStop(e, q, 1).None? && q.cast(RayAt(e, q, q.frameEnd - 1)).hit ==>
              |Predict(e, q).value| == 2 * q.frameEnd - 1
              && IsEmitterInstance(e.id, q.cast(RayAt(e, q, q.frameEnd - 1)).hitProps)
  {
    if FirstStop(e, q, 1).None? {
      assert !StopsAt(e, q, q.frameEnd - 1);
    }
  }

  /** Shape of the path: the seed is the emitter's location (the displacement
      at time 0), each accepted frame `f` occupies indices `2f−1` and `2f`,
      and the last point is the blocking hit point, the endpoint at
      `frameEnd`, or (after a hit on an own instance on the last frame) the
      point of frame `frameEnd − 1`. */
  lemma PredictShape(e: Emitter, q: Query)
    requires ValidQuery(q)
    requires q.frameEnd > 1
    ensures Predict(e, q).value[0] == e.location
    ensures var end := if FirstStop(e, q, 1).Some? then FirstStop(e, q, 1).value else q.frameEnd;
            forall f :: 1 <= f < end ==>
              2 * f < |Predict(e, q).value|
              && Predict(e, q).value[2 * f - 1] == PointAt(e, q, f)
              && Predict(e, q).value[2 * f] == PointAt(e, q, f)
    ensures var path := Predict(e, q).value;
            match FirstStop(e, q, 1)
            case Some(k) => path[|path| - 1] == q.cast(RayAt(e, q, k)).location
            case None =>
              path[|path| - 1] ==
                if q.cast(RayAt(e, q, q.frameEnd - 1)).hit then PointAt(e, q, q.frameEnd - 1)
                else PointAt(e, q, q.frameEnd)
  {
    PredictSeed(e, q);
    PredictFrames(e, q);
    PredictEnd(e, q);
  }

  lemma PredictSeed(e: Emitter, q: Query)
    requires ValidQuery(q)
    requires q.frameEnd > 1
    ensures Predict(e, q).value[0] == e.location
  {
  }

  lemma PredictFrames(e: Emitter, q: Query)
    requires ValidQuery(q)
    requires q.frameEnd > 1
    ensures var end := if FirstStop(e, q, 1).Some? then FirstStop(e, q, 1).value else q.frameEnd;
            forall f :: 1 <= f < end ==>
              2 * f < |Predict(e, q).value|
              && Predict(e, q).value[2 * f - 1] == PointAt(e, q, f)
              && Predict(e, q).value[2 * f] == PointAt(e, q, f)
  {
    var path := Predict(e, q).value;
    var stop := FirstStop(e, q, 1);
    var end := if stop.Some? then stop.value else q.frameEnd;
    var pairs := Pairs(e, q, 1, end);
    assert path[..1 + |pairs|] == [PointAt(e, q, 0)] + pairs;
    forall f | 1 <= f < end
      ensures 2 * f < |path| && path[2 * f - 1] == PointAt(e, q, f) && path[2 * f] == PointAt(e, q, f)
    {
      assert path[2 * f - 1] == pairs[2 * f - 2];
      assert path[2 * f] == pairs[2 * f - 1];
      assert (2 * f - 2) / 2 == f - 1;
      assert (2 * f - 1) / 2 == f - 1;
    }
  }

  lemma PredictEnd(e: Emitter, q: Query)
    requires ValidQuery(q)
    requires q.frameEnd > 1
    ensures var path := Predict(e, q).value;
            match FirstStop(e, q, 1)
            case Some(k) => path[|path| - 1] == q.cast(RayAt(e, q, k)).location
            case None =>
              path[|path| - 1] ==
                if q.cast(RayAt(e, q, q.frameEnd - 1)).hit then PointAt(e, q, q.frameEnd - 1)
                else PointAt(e, q, q.frameEnd)
  {
    var path := Predict(e, q).value;
    if FirstStop(e, q, 1).None? && q.cast(RayAt(e, q, q.frameEnd - 1)).hit {
      var pairs := Pairs(e, q, 1, q.frameEnd);
      assert path == [PointAt(e, q, 0)] + pairs;
      assert path[|path| - 1] == pairs[|pairs| - 1];
      assert (|pairs| - 1) / 2 == q.frameEnd - 2;
    }
  }

  /** Hits on the emitter's own instances never truncate: if every hit of
      every cast is an own instance, the path runs to the last frame. */
  lemma OwnInstancesNeverTruncate(e: Emitter, q: Query)
    requires ValidQuery(q)
    requires q.frameEnd > 1
    requires forall f :: 1 <= f < q.frameEnd && q.cast(RayAt(e, q, f)).hit ==>
               IsEmitterInstance(e.id, q.cast(RayAt(e, q, f)).hitProps)
    ensures FirstStop(e, q, 1).None?
    ensures |Predict(e, q).value| >= 2 * q.frameEnd - 1
  {
    PredictLength(e, q);
  }

  /** Without gravity and without any hit the path is the straight line
      `location + (f / fps)·velocity`: element `i` is the point of frame
      `(i + 1) / 2`, so every interior frame appears twice and the path ends
      at frame `frameEnd`. */
  lemma UnobstructedStraightLine(e: Emitter, q: Query)
    requires ValidQuery(q)
    requires q.frameEnd > 1
    requires !q.physics.useGravity
    requires forall f :: 1 <= f < q.frameEnd ==> !q.cast(RayAt(e, q, f)).hit
    ensures |Predict(e, q).value| == 2 * q.frameEnd
    ensures forall i :: 0 <= i < |Predict(e, q).value| ==>
              Predict(e, q).value[i]
                == Add(e.location, Scale(Kinematics.TimeStep((i + 1) / 2, q.physics.fps), e.velocity))
  {
    assert !q.cast(RayAt(e, q, q.frameEnd - 1)).hit;
    assert FirstStop(e, q, 1).None?;
    var pairs := Pairs(e, q, 1, q.frameEnd);
    var path := Predict(e, q).value;
    assert path == [PointAt(e, q, 0)] + pairs + [PointAt(e, q, q.frameEnd)];
    forall i | 0 <= i < |path|
      ensures path[i] == PointAt(e, q, (i + 1) / 2)
    {
      if 0 < i < |path| - 1 {
        assert path[i] == pairs[i - 1];
        assert 1 + (i - 1) / 2 == (i + 1) / 2;
      }
    }
  }

  /** The concatenation of a sequence of paths, in order. */
  function Flatten(paths: seq<seq<Vec3>>): seq<Vec3>
    decreases |paths|
  {
    if |paths| == 0 then [] else paths[0] + Flatten(paths[1..])
  }

  /** The predicted path of every emitter, in order. */
  function Paths(emitters: seq<Emitter>, q: Query): (r: seq<seq<Vec3>>)
    requires ValidQuery(q) && q.frameEnd > 1
    ensures |r| == |emitters|
    ensures forall k :: 0 <= k < |emitters| ==> Ok(r[k]) == Predict(emitters[k], q)
  {
    seq(|emitters|, k requires 0 <= k < |emitters| => Predict(emitters[k], q).value)
  }

  /** `draw_trajectory`'s list of coordinates: the paths of the emitters, in
      order, concatenated into one `LINES` batch. Since every emitter shares
      the scene's end frame, one failing prediction fails the whole draw. */
  function DrawCoordinates(emitters: seq<Emitter>, q: Query): (r: Result<seq<Vec3>, TrajectoryError>)
    requires ValidQuery(q)
    ensures r.Err? <==> |emitters| > 0 && q.frameEnd <= 1
    ensures r.Ok? && |emitters| == 0 ==> r.value == []
    ensures r.Ok? && |emitters| > 0 ==> q.frameEnd > 1 && r.value == Flatten(Paths(emitters, q))
    ensures r.Ok? ==> |r.value| >= 2 * |emitters|
    decreases |emitters|
  {
    if |emitters| == 0 then Ok([])
    else if q.frameEnd <= 1 then Err(IndexError)
    else
      PredictLength(emitters[0], q);
      assert Paths(emitters[1..], q) == Paths(emitters, q)[1..];
      Ok(Predict(emitters[0], q).value + DrawCoordinates(emitters[1..], q).value)
  }

  /** Every emitter contributes a block of at least two points: the seed and
      at least the hit location or one accepted frame. */
  lemma DrawnPathLengths(emitters: seq<Emitter>, q: Query)
    requires ValidQuery(q) && q.frameEnd > 1
    ensures forall k :: 0 <= k < |emitters| ==> |Paths(emitters, q)[k]| >= 2
  {
    forall k | 0 <= k < |emitters|
      ensures |Paths(emitters, q)[k]| >= 2
    {
      PredictLength(emitters[k], q);
    }
  }
}

=== FILE: updates.dfy ===
/** The property update callbacks: `props_dirty` and
    `call_multiple_functions` of `props.py`, the `update=` wiring of each
    `ProjectileObject` property, and the Cartesian/spherical velocity
    callbacks of `projectile/utils.py` with their module-global `FROM_UI`
    guard.

    Blender runs a property's update callback after every assignment to it,
    including assignments made from inside a callback, so the callbacks and
    the assignment are mutually recursive. The guard is what stops the
    recursion: each callback that writes sets it first, and a callback that
    finds it set clears it and does nothing. The model makes the Python call
    depth explicit as `depth`; running out of it is Python's
    `RecursionError`, and `AssignNeverRecursesDeeply` shows two levels are
    always enough. */
module Updates {
  import opened Wrappers
  import opened CustomProps
  import opened Props
  import opened Scenes
  import Kinematics

  datatype Callback = VelocityCallback | SphericalCallback | PropsDirty

  datatype UpdateError = RecursionError

  /** The scene together with the value of `FROM_UI`. */
  datatype Ui = Ui(scene: Scene, fromUi: bool)

  /** `FROM_UI = True` at module load. */
  const InitialFromUi := true

  /** The `update=` functions of each property, in call order. Every
      property but the two internal flags marks the emitter dirty, with
      `props_dirty` the last hook. */
  function Hooks(f: Field): (r: seq<Callback>)
    ensures f != IsEmitter && f != IsDirty <==> |r| > 0
    ensures |r| > 0 ==> r[|r| - 1] == PropsDirty
  {
    match f
    case IsEmitter => []
    case IsDirty => []
    case V => [VelocityCallback, PropsDirty]
    case Radius => [SphericalCallback, PropsDirty]
    case Incline => [SphericalCallback, PropsDirty]
    case Azimuth => [SphericalCallback, PropsDirty]
    case _ => [PropsDirty]
  }

  /** `props_dirty` runs only last; the velocity converts to spherical
      coordinates and the three spherical coordinates convert back. */
  lemma HookRoles(f: Field)
    ensures forall i :: 0 <= i < |Hooks(f)| - 1 ==> Hooks(f)[i] != PropsDirty
    ensures VelocityCallback in Hooks(f) <==> f == V
    ensures SphericalCallback in Hooks(f) <==> f in {Radius, Incline, Azimuth}
  {
  }

  /** `props_dirty(self, context)`: the active object, if any, is marked
      dirty; nothing else changes. */
  function MarkDirty(s: Scene): (r: Scene)
    ensures |r.objects| == |s.objects| && r.active == s.active && r.frameCurrent == s.frameCurrent
    ensures ActiveObject(s).Some? ==>
              r.objects[ActiveObject(s).value] == s.objects[ActiveObject(s).value].(isDirty := true)
    ensures forall i :: 0 <= i < |s.objects| && Some(i) != ActiveObject(s) ==> r.objects[i] == s.objects[i]
    ensures ActiveObject(s).None? ==> r == s
  {
    match ActiveObject(s)
    case None => s
    case Some(o) => EditObject(s, o, SetIsDirty(true))
  }

  /** Marking twice is marking once. */
  lemma MarkDirtyIdempotent(s: Scene)
    ensures MarkDirty(MarkDirty(s)) == MarkDirty(s)
  {
    if ActiveObject(s).Some? {
      ApplyIdempotent(s.objects[ActiveObject(s).value], SetIsDirty(true));
    }
  }

  /** A run keeps the number of objects, the active object and the frame. */
  predicate Keeps(u: Ui, r: Ui) {
    && |r.scene.objects| == |u.scene.objects|
    && r.scene.active == u.scene.active
    && r.scene.frameCurrent == u.scene.frameCurrent
  }

  /** A callback run only touches the active object, and an assignment
      additionally touches the object assigned to. */
  predicate Touches(u: Ui, r: Ui, target: Option<ObjectId>) {
    && Keeps(u, r)
    && (forall i :: 0 <= i < |u.scene.objects| && Some(i) != target && Some(i) != ActiveObject(u.scene) ==>
          r.scene.objects[i] == u.scene.objects[i])
  }

  /** `ob.projectile_props.<field> = value` for the edit `e` on object `o`:
      the value is stored, then the property's update hooks run. */
  function Assign(u: Ui, o: ObjectId, e: Edit, trig: Kinematics.Trig, depth: nat): (r: Result<Ui, UpdateError>)
    requires o < |u.scene.objects|
    ensures r.Ok? ==> Keeps(u, r.value)
    decreases depth, 0, 0
  {
    if depth == 0 then Err(RecursionError)
    else RunHooks(Ui(EditObject(u.scene, o, e), u.fromUi), Hooks(FieldOf(e)), trig, depth - 1)
  }

  /** `call_multiple_functions(funcs, self, context)`: each callback in list
      order, each seeing the state the previous one left. */
  function RunHooks(u: Ui, hooks: seq<Callback>, trig: Kinematics.Trig, depth: nat): (r: Result<Ui, UpdateError>)
    ensures r.Ok? ==> Keeps(u, r.value)
    decreases depth, 2, |hooks|
  {
    if hooks == [] then Ok(u)
    else
      match RunCallback(u, hooks[0], trig, depth)
      case Err(x) => Err(x)
      case Ok(u1) => RunHooks(u1, hooks[1..], trig, depth)
  }

  /** One update callback. The velocity and spherical callbacks first test
      the guard; then, for an active emitter, they re-arm it before each
      write they make. */
  function RunCallback(u: Ui, cb: Callback, trig: Kinematics.Trig, depth: nat): (r: Result<Ui, UpdateError>)
    ensures r.Ok? ==> Keeps(u, r.value)
    decreases depth, 1, 0
  {
    if cb == PropsDirty then Ok(u.(scene := MarkDirty(u.scene)))
    else if u.fromUi then Ok(u.(fromUi := false))
    else if ActiveObject(u.scene).None? then Ok(u)
    else
      var o := ActiveObject(u.scene).value;
      var p := u.scene.objects[o];
      if !p.isEmitter then Ok(u)
      else if cb == VelocityCallback then
        var s := Kinematics.CartesianToSpherical(p.v, trig);
        match Assign(u.(fromUi := true), o, SetRadius(s.radius), trig, depth)
        case Err(x) => Err(x)
        case Ok(u1) =>
          match Assign(u1.(fromUi := true), o, SetIncline(s.incline), trig, depth)
          case Err(x) => Err(x)
          case Ok(u2) => Assign(u2.(fromUi := true), o, SetAzimuth(s.azimuth), trig, depth)
      else
        var v := Kinematics.SphericalToCartesian(Kinematics.Spherical(p.radius, p.incline, p.azimuth), trig);
        Assign(u.(fromUi := true), o, SetV(v), trig, depth)
  }

  /** An assignment changes only the object assigned to and the active
      object; every other object keeps its properties. */
  lemma AssignTouches(u: Ui, o: ObjectId, e: Edit, trig: Kinematics.Trig, depth: nat)
    requires o < |u.scene.objects|
    ensures Assign(u, o, e, trig, depth).Ok? ==> Touches(u, Assign(u, o, e, trig, depth).value, Some(o))
    decreases depth, 0, 0
  {
    if depth > 0 {
      RunHooksTouches(Ui(EditObject(u.scene, o, e), u.fromUi), Hooks(FieldOf(e)), trig, depth - 1);
    }
  }

  /** Running hooks changes only the active object. */
  lemma RunHooksTouches(u: Ui, hooks: seq<Callback>, trig: Kinematics.Trig, depth: nat)
    ensures RunHooks(u, hooks, trig, depth).Ok? ==> Touches(u, RunHooks(u, hooks, trig, depth).value, None)
    decreases depth, 2, |hooks|
  {
    if hooks != [] {
      RunCallbackTouches(u, hooks[0], trig, depth);
      var r := RunCallback(u, hooks[0], trig, depth);
      if r.Ok? {
        RunHooksTouches(r.value, hooks[1..], trig, depth);
      }
    }
  }

  /** A callback changes only the active object. */
  lemma RunCallbackTouches(u: Ui, cb: Callback, trig: Kinematics.Trig, depth: nat)
    ensures RunCallback(u, cb, trig, depth).Ok? ==> Touches(u, RunCallback(u, cb, trig, depth).value, None)
    decreases depth, 1, 0
  {
    if cb != PropsDirty && !u.fromUi && ActiveObject(u.scene).Some? {
      var o := ActiveObject(u.scene).value;
      var p := u.scene.objects[o];
      if p.isEmitter && cb == VelocityCallback {
        var s := Kinematics.CartesianToSpherical(p.v, trig);
        AssignTouches(u.(fromUi := true), o, SetRadius(s.radius), trig, depth);
        var r1 := Assign(u.(fromUi := true), o, SetRadius(s.radius), trig, depth);
        if r1.Ok? {
          AssignTouches(r1.value.(fromUi := true), o, SetIncline(s.incline), trig, depth);
          var r2 := Assign(r1.value.(fromUi := true), o, SetIncline(s.incline), trig, depth);
          if r2.Ok? {
            AssignTouches(r2.value.(fromUi := true), o, SetAzimuth(s.azimuth), trig, depth);
          }
        }
      } else if p.isEmitter {
        var v := Kinematics.SphericalToCartesian(Kinematics.Spherical(p.radius, p.incline, p.azimuth), trig);
        AssignTouches(u.(fromUi := true), o, SetV(v), trig, depth);
      }
    }
  }

  // ---------------------------------------------------------------------
  // `call_multiple_functions`

  /** Running `a + b` is running `a` and then `b` on its result. */
  lemma {:induction false} RunHooksAppend(u: Ui, a: seq<Callback>, b: seq<Callback>, trig: Kinematics.Trig, depth: nat)
    ensures RunHooks(u, a + b, trig, depth) ==
            match RunHooks(u, a, trig, depth)
            case Err(x) => Err(x)
            case Ok(u1) => RunHooks(u1, b, trig, depth)
    decreases |a|
  {
    if a == [] {
      assert a + b == b;
    } else {
      assert (a + b)[0] == a[0] && (a + b)[1..] == a[1..] + b;
      match RunCallback(u, a[0], trig, depth)
      case Err(x) =>
      case Ok(u1) => RunHooksAppend(u1, a[1..], b, trig, depth);
    }
  }

  /** With the guard set, a velocity or spherical callback only clears it. */
  lemma GuardSwallowsCallback(u: Ui, cb: Callback, trig: Kinematics.Trig, depth: nat)
    requires u.fromUi && cb != PropsDirty
    ensures RunCallback(u, cb, trig, depth) == Ok(u.(fromUi := false))
  {
  }

  /** An assignment made with the guard set stores the value, lets the
      property's converting callback (if any) clear the guard, and marks the
      active object dirty: no callback writes, so one level of depth
      suffices. */
  lemma GuardedAssign(u: Ui, o: ObjectId, e: Edit, trig: Kinematics.Trig, depth: nat)
    requires o < |u.scene.objects| && u.fromUi && depth >= 1
    requires FieldOf(e) != IsEmitter && FieldOf(e) != IsDirty
    ensures Assign(u, o, e, trig, depth) ==
            Ok(Ui(MarkDirty(EditObject(u.scene, o, e)), FieldOf(e) !in {V, Radius, Incline, Azimuth}))
  {
    var u0 := Ui(EditObject(u.scene, o, e), u.fromUi);
    var h := Hooks(FieldOf(e));
    if FieldOf(e) in {V, Radius, Incline, Azimuth} {
      assert h == [h[0]] + [PropsDirty] && h[0] != PropsDirty;
      RunHooksAppend(u0, [h[0]], [PropsDirty], trig, depth - 1);
      GuardSwallowsCallback(u0, h[0], trig, depth - 1);
      assert RunHooks(u0, [h[0]], trig, depth - 1) == Ok(u0.(fromUi := false));
    } else {
      assert h == [PropsDirty] && h[1..] == [];
      var u1 := Ui(MarkDirty(u0.scene), true);
      assert RunCallback(u0, PropsDirty, trig, depth - 1) == Ok(u1);
      assert RunHooks(u1, [], trig, depth - 1) == Ok(u1);
    }
  }

  /** The guard state right after the add-on is loaded (`FROM_UI` is set
      once, when the module is imported): the first velocity or spherical
      edit is swallowed. Its value is stored and the emitter marked dirty, but
      the other representation is not updated, and the guard is cleared. */
  lemma FirstEditAfterLoadIsSwallowed(scene: Scene, o: ObjectId, e: Edit, trig: Kinematics.Trig, depth: nat)
    requires o < |scene.objects| && depth >= 1
    requires FieldOf(e) in {V, Radius, Incline, Azimuth}
    ensures var r := Assign(Ui(scene, InitialFromUi), o, e, trig, depth);
            && r.Ok? && !r.value.fromUi
            && r.value.scene == MarkDirty(EditObject(scene, o, e))
            && (FieldOf(e) == V ==> r.value.scene.objects[o].radius == scene.objects[o].radius)
            && (FieldOf(e) != V ==> r.value.scene.objects[o].v == scene.objects[o].v)
  {
    GuardedAssign(Ui(scene, InitialFromUi), o, e, trig, depth);
    ApplyReadsBack(scene.objects[o], e);
    assert Get(Apply(scene.objects[o], e), Radius) == Get(scene.objects[o], Radius) || FieldOf(e) != V;
    assert Get(Apply(scene.objects[o], e), V) == Get(scene.objects[o], V) || FieldOf(e) == V;
  }

  /** Every callback returns normally once it has a level of depth to spend. */
  lemma CallbackReturns(u: Ui, cb: Callback, trig: Kinematics.Trig, depth: nat)
    requires depth >= 1
    ensures RunCallback(u, cb, trig, depth).Ok?
  {
    if cb != PropsDirty && !u.fromUi && ActiveObject(u.scene).Some? {
      var o := ActiveObject(u.scene).value;
      var p := u.scene.objects[o];
      if p.isEmitter && cb == VelocityCallback {
        VelocityCallbackConverts(u, o, trig, depth);
      } else if p.isEmitter {
        SphericalCallbackConverts(u, o, trig, depth);
      }
    }
  }

  lemma {:induction false} HooksReturn(u: Ui, hooks: seq<Callback>, trig: Kinematics.Trig, depth: nat)
    requires depth >= 1
    ensures RunHooks(u, hooks, trig, depth).Ok?
    decreases |hooks|
  {
    if hooks != [] {
      CallbackReturns(u, hooks[0], trig, depth);
      HooksReturn(RunCallback(u, hooks[0], trig, depth).value, hooks[1..], trig, depth);
    }
  }

  /** The guard bounds the recursion: every assignment, whatever the guard,
      the active object and the property, returns normally within two levels
      of nesting, so Python's recursion limit is never reached. */
  lemma AssignNeverRecursesDeeply(u: Ui, o: ObjectId, e: Edit, trig: Kinematics.Trig, depth: nat)
    requires o < |u.scene.objects| && depth >= 2
    ensures Assign(u, o, e, trig, depth).Ok?
  {
    HooksReturn(Ui(EditObject(u.scene, o, e), u.fromUi), Hooks(FieldOf(e)), trig, depth - 1);
  }

  /** `props_dirty` always follows: after any assignment that returns
      normally to a property other than the two internal flags, the active
      object, if there is one, is dirty, even when the guard swallowed the
      conversion. */
  lemma DirtyAfterEveryEdit(u: Ui, o: ObjectId, e: Edit, trig: Kinematics.Trig, depth: nat)
    requires o < |u.scene.objects|
    requires FieldOf(e) != IsEmitter && FieldOf(e) != IsDirty
    requires ActiveObject(u.scene).Some?
    requires Assign(u, o, e, trig, depth).Ok?
    ensures Assign(u, o, e, trig, depth).value.scene.objects[ActiveObject(u.scene).value].isDirty
  {
    var h := Hooks(FieldOf(e));
    var n := |h|;
    var u0 := Ui(EditObject(u.scene, o, e), u.fromUi);
    assert h == h[..n - 1] + [PropsDirty];
    RunHooksAppend(u0, h[..n - 1], [PropsDirty], trig, depth - 1);
    var u1 := RunHooks(u0, h[..n - 1], trig, depth - 1).value;
    assert RunHooks(u1, [PropsDirty], trig, depth - 1) == Ok(u1.(scene := MarkDirty(u1.scene)));
    assert ActiveObject(u1.scene) == ActiveObject(u.scene);
  }

  /** A write a callback makes to the active object with the guard re-armed:
      the value is stored, the object is marked dirty, and the guard ends
      cleared. */
  lemma ArmedWrite(u: Ui, o: ObjectId, e: Edit, trig: Kinematics.Trig, depth: nat)
    requires ActiveObject(u.scene) == Some(o) && depth >= 1
    requires FieldOf(e) in {V, Radius, Incline, Azimuth}
    ensures Assign(u.(fromUi := true), o, e, trig, depth) ==
            Ok(Ui(u.scene.(objects := u.scene.objects[o := Apply(u.scene.objects[o], e).(isDirty := true)]), false))
  {
    GuardedAssign(u.(fromUi := true), o, e, trig, depth);
    var s1 := EditObject(u.scene, o, e);
    var q := Apply(u.scene.objects[o], e);
    assert s1.objects == u.scene.objects[o := q];
    assert ActiveObject(s1) == Some(o);
    assert MarkDirty(s1) == EditObject(s1, o, SetIsDirty(true));
    assert Apply(q, SetIsDirty(true)) == q.(isDirty := true);
    assert u.scene.objects[o := q][o := q.(isDirty := true)] == u.scene.objects[o := q.(isDirty := true)];
  }

  lemma ArmedWriteAs(u: Ui, o: ObjectId, e: Edit, trig: Kinematics.Trig, depth: nat, q: ProjectileProps)
    requires ActiveObject(u.scene) == Some(o) && depth >= 1
    requires FieldOf(e) in {V, Radius, Incline, Azimuth}
    requires q == Apply(u.scene.objects[o], e).(isDirty := true)
    ensures Assign(u.(fromUi := true), o, e, trig, depth) == Ok(Ui(u.scene.(objects := u.scene.objects[o := q]), false))
  {
    ArmedWrite(u, o, e, trig, depth);
  }

  /** The velocity callback on the active emitter with the guard clear: the
      spherical fields become the spherical coordinates of its `v`. */
  lemma VelocityCallbackConverts(u: Ui, o: ObjectId, trig: Kinematics.Trig, depth: nat)
    requires !u.fromUi && ActiveObject(u.scene) == Some(o) && u.scene.objects[o].isEmitter
    requires depth >= 1
    ensures var p := u.scene.objects[o];
            var s := Kinematics.CartesianToSpherical(p.v, trig);
            RunCallback(u, VelocityCallback, trig, depth) == Ok(Ui(
              u.scene.(objects := u.scene.objects[o := p.(radius := s.radius, incline := s.incline,
                                                         azimuth := s.azimuth, isDirty := true)]),
              false))
  {
    var p := u.scene.objects[o];
    var s := Kinematics.CartesianToSpherical(p.v, trig);
    var p1 := p.(radius := s.radius, isDirty := true);
    var p2 := p1.(incline := s.incline);
    var p3 := p2.(azimuth := s.azimuth);
    var u1 := Ui(u.scene.(objects := u.scene.objects[o := p1]), false);
    var u2 := Ui(u.scene.(objects := u.scene.objects[o := p2]), false);
    VelocityWrites(u, o, trig, depth, s, p1, p2, p3);
    VelocityCallbackSteps(u, o, trig, depth, u1, u2);
  }

  /** The three writes of the velocity callback, each over the last. */
  lemma VelocityWrites(u: Ui, o: ObjectId, trig: Kinematics.Trig, depth: nat, s: Kinematics.Spherical,
                       p1: ProjectileProps, p2: ProjectileProps, p3: ProjectileProps)
    requires ActiveObject(u.scene) == Some(o) && depth >= 1
    requires p1 == u.scene.objects[o].(radius := s.radius, isDirty := true)
    requires p2 == p1.(incline := s.incline) && p3 == p2.(azimuth := s.azimuth)
    ensures Assign(u.(fromUi := true), o, SetRadius(s.radius), trig, depth) ==
            Ok(Ui(u.scene.(objects := u.scene.objects[o := p1]), false))
    ensures Assign(Ui(u.scene.(objects := u.scene.objects[o := p1]), true), o, SetIncline(s.incline), trig, depth) ==
            Ok(Ui(u.scene.(objects := u.scene.objects[o := p2]), false))
    ensures Assign(Ui(u.scene.(objects := u.scene.objects[o := p2]), true), o, SetAzimuth(s.azimuth), trig, depth) ==
            Ok(Ui(u.scene.(objects := u.scene.objects[o := p3]), false))
  {
    RadiusWrite(u, o, trig, depth, s.radius, p1);
    InclineWrite(u, o, trig, depth, s.incline, p1, p2);
    AzimuthWrite(u, o, trig, depth, s.azimuth, p2, p3);
  }

  /** The velocity callback's write of the radius, the first. */
  lemma RadiusWrite(u: Ui, o: ObjectId, trig: Kinematics.Trig, depth: nat, radius: real, p1: ProjectileProps)
    requires ActiveObject(u.scene) == Some(o) && depth >= 1
    requires p1 == u.scene.objects[o].(radius := radius, isDirty := true)
    ensures Assign(u.(fromUi := true), o, SetRadius(radius), trig, depth) ==
            Ok(Ui(u.scene.(objects := u.scene.objects[o := p1]), false))
  {
    assert Apply(u.scene.objects[o], SetRadius(radius)).(isDirty := true) == p1;
    ArmedWriteAs(u, o, SetRadius(radius), trig, depth, p1);
  }

  /** The velocity callback's write of the incline, over the radius write. */
  lemma InclineWrite(u: Ui, o: ObjectId, trig: Kinematics.Trig, depth: nat, incline: real,
                     p1: ProjectileProps, p2: ProjectileProps)
    requires ActiveObject(u.scene) == Some(o) && depth >= 1
    requires p2 == p1.(incline := incline, isDirty := true)
    ensures Assign(Ui(u.scene.(objects := u.scene.objects[o := p1]), true), o, SetIncline(incline), trig, depth) ==
            Ok(Ui(u.scene.(objects := u.scene.objects[o := p2]), false))
  {
    assert Apply(p1, SetIncline(incline)).(isDirty := true) == p2;
    WriteOver(u, o, SetIncline(incline), trig, depth, p1, p2);
  }

  /** The velocity callback's write of the azimuth, over the incline write. */
  lemma AzimuthWrite(u: Ui, o: ObjectId, trig: Kinematics.Trig, depth: nat, azimuth: real,
                     p2: ProjectileProps, p3: ProjectileProps)
    requires ActiveObject(u.scene) == Some(o) && depth >= 1
    requires p3 == p2.(azimuth := azimuth, isDirty := true)
    ensures Assign(Ui(u.scene.(objects := u.scene.objects[o := p2]), true), o, SetAzimuth(azimuth), trig, depth) ==
            Ok(Ui(u.scene.(objects := u.scene.objects[o := p3]), false))
  {
    assert Apply(p2, SetAzimuth(azimuth)).(isDirty := true) == p3;
    WriteOver(u, o, SetAzimuth(azimuth), trig, depth, p2, p3);
  }

  /** A later write of a callback to the active object `o`, over the value
      `prev` its earlier writes left there. */
  lemma WriteOver(u: Ui, o: ObjectId, e: Edit, trig: Kinematics.Trig, depth: nat,
                  prev: ProjectileProps, next: ProjectileProps)
    requires ActiveObject(u.scene) == Some(o) && depth >= 1
    requires FieldOf(e) in {V, Radius, Incline, Azimuth}
    requires next == Apply(prev, e).(isDirty := true)
    ensures Assign(Ui(u.scene.(objects := u.scene.objects[o := prev]), true), o, e, trig, depth) ==
            Ok(Ui(u.scene.(objects := u.scene.objects[o := next]), false))
  {
    var w := Ui(u.scene.(objects := u.scene.objects[o := prev]), false);
    assert ActiveObject(w.scene) == Some(o);
    ArmedWriteAs(w, o, e, trig, depth, next);
    assert w.scene.objects[o := next] == u.scene.objects[o := next];
  }

  /** The velocity callback is its three writes in sequence. */
  lemma VelocityCallbackSteps(u: Ui, o: ObjectId, trig: Kinematics.Trig, depth: nat, u1: Ui, u2: Ui)
    requires !u.fromUi && ActiveObject(u.scene) == Some(o) && u.scene.objects[o].isEmitter
    requires var s := Kinematics.CartesianToSpherical(u.scene.objects[o].v, trig);
             && Assign(u.(fromUi := true), o, SetRadius(s.radius), trig, depth) == Ok(u1)
             && o < |u1.scene.objects|
             && Assign(u1.(fromUi := true), o, SetIncline(s.incline), trig, depth) == Ok(u2)
             && o < |u2.scene.objects|
    ensures var s := Kinematics.CartesianToSpherical(u.scene.objects[o].v, trig);
            RunCallback(u, VelocityCallback, trig, depth) == Assign(u2.(fromUi := true), o, SetAzimuth(s.azimuth), trig, depth)
  {
  }

  /** The spherical callback on the active emitter with the guard clear: `v`
      becomes the Cartesian vector of its spherical fields. */
  lemma SphericalCallbackConverts(u: Ui, o: ObjectId, trig: Kinematics.Trig, depth: nat)
    requires !u.fromUi && ActiveObject(u.scene) == Some(o) && u.scene.objects[o].isEmitter
    requires depth >= 1
    ensures var p := u.scene.objects[o];
            var v := Kinematics.SphericalToCartesian(Kinematics.Spherical(p.radius, p.incline, p.azimuth), trig);
            RunCallback(u, SphericalCallback, trig, depth) ==
              Ok(Ui(u.scene.(objects := u.scene.objects[o := p.(v := v, isDirty := true)]), false))
  {
    var p := u.scene.objects[o];
    var v := Kinematics.SphericalToCartesian(Kinematics.Spherical(p.radius, p.incline, p.azimuth), trig);
    ArmedWrite(u, o, SetV(v), trig, depth);
  }

  /** The hooks of a converting property with the guard clear: the callback,
      then `props_dirty`, which finds the object already dirty. */
  lemma ConvertingHooks(u: Ui, o: ObjectId, cb: Callback, trig: Kinematics.Trig, depth: nat)
    requires ActiveObject(u.scene) == Some(o) && cb != PropsDirty
    requires RunCallback(u, cb, trig, depth).Ok?
    requires RunCallback(u, cb, trig, depth).value.scene.objects[o].isDirty
    ensures RunHooks(u, [cb, PropsDirty], trig, depth) == RunCallback(u, cb, trig, depth)
  {
    var u1 := RunCallback(u, cb, trig, depth).value;
    RunHooksAppend(u, [cb], [PropsDirty], trig, depth);
    assert [cb] + [PropsDirty] == [cb, PropsDirty];
    assert ActiveObject(u1.scene) == Some(o);
    assert u1.scene.objects[o].(isDirty := true) == u1.scene.objects[o];
    assert MarkDirty(u1.scene) == u1.scene;
  }

  lemma SphericalHooks(f: Field)
    requires f in {Radius, Incline, Azimuth}
    ensures Hooks(f) == [SphericalCallback, PropsDirty]
  {
  }

  /** Editing `v` of the active emitter with the guard clear converts it once:
      `v` keeps the edited value, the spherical fields become its spherical
      coordinates, the emitter is dirty, nothing else changes, and the guard
      ends cleared. The three nested writes do not convert back, because the
      guard is re-armed before each of them. */
  lemma VelocityEditUpdatesSpherical(u: Ui, o: ObjectId, v: Vectors.Vec3, trig: Kinematics.Trig, depth: nat)
    requires !u.fromUi && ActiveObject(u.scene) == Some(o) && u.scene.objects[o].isEmitter
    requires depth >= 2
    ensures var s := Kinematics.CartesianToSpherical(v, trig);
            var p := u.scene.objects[o];
            Assign(u, o, SetV(v), trig, depth) == Ok(Ui(
              u.scene.(objects := u.scene.objects[o := p.(v := v, radius := s.radius, incline := s.incline,
                                                         azimuth := s.azimuth, isDirty := true)]),
              false))
  {
    var u0 := Ui(EditObject(u.scene, o, SetV(v)), false);
    AssignRunsHooks(u, o, SetV(v), trig, depth);
    VelocityHooksConvert(u, o, v, trig, depth, u0);
  }

  /** An assignment with call depth left stores the value and runs the
      property's hooks one level deeper. */
  lemma AssignRunsHooks(u: Ui, o: ObjectId, e: Edit, trig: Kinematics.Trig, depth: nat)
    requires o < |u.scene.objects| && depth >= 1
    ensures Assign(u, o, e, trig, depth) ==
            RunHooks(Ui(EditObject(u.scene, o, e), u.fromUi), Hooks(FieldOf(e)), trig, depth - 1)
  {
  }

  /** The hooks of `v` after the edit: the velocity callback converts, and
      `props_dirty` finds the emitter already dirty. */
  lemma VelocityHooksConvert(u: Ui, o: ObjectId, v: Vectors.Vec3, trig: Kinematics.Trig, depth: nat, u0: Ui)
    requires !u.fromUi && ActiveObject(u.scene) == Some(o) && u.scene.objects[o].isEmitter
    requires depth >= 2
    requires u0 == Ui(EditObject(u.scene, o, SetV(v)), false)
    ensures var s := Kinematics.CartesianToSpherical(v, trig);
            var p := u.scene.objects[o];
            RunHooks(u0, Hooks(V), trig, depth - 1) == Ok(Ui(
              u.scene.(objects := u.scene.objects[o := p.(v := v, radius := s.radius, incline := s.incline,
                                                         azimuth := s.azimuth, isDirty := true)]),
              false))
  {
    var p := u.scene.objects[o];
    assert u0.scene.objects[o] == p.(v := v);
    VelocityCallbackConverts(u0, o, trig, depth - 1);
    ConvertingHooks(u0, o, VelocityCallback, trig, depth - 1);
    assert Hooks(V) == [VelocityCallback, PropsDirty];
    var s := Kinematics.CartesianToSpherical(v, trig);
    var q := p.(v := v, radius := s.radius, incline := s.incline, azimuth := s.azimuth, isDirty := true);
    assert u0.scene.objects[o].(radius := s.radius, incline := s.incline, azimuth := s.azimuth, isDirty := true) == q;
    assert u0.scene.objects[o := q] == u.scene.objects[o := q];
    assert u0.scene.(objects := u0.scene.objects[o := q]) == u.scene.(objects := u.scene.objects[o := q]);
  }

  /** Editing the radius, incline or azimuth of the active emitter with the
      guard clear converts once the other way: `v` becomes the Cartesian
      vector of the new spherical fields, the emitter is dirty, and the guard
      ends cleared. */
  lemma SphericalEditUpdatesVelocity(u: Ui, o: ObjectId, e: Edit, trig: Kinematics.Trig, depth: nat)
    requires !u.fromUi && ActiveObject(u.scene) == Some(o) && u.scene.objects[o].isEmitter
    requires FieldOf(e) in {Radius, Incline, Azimuth}
    requires depth >= 2
    ensures var p := Apply(u.scene.objects[o], e);
            var v := Kinematics.SphericalToCartesian(Kinematics.Spherical(p.radius, p.incline, p.azimuth), trig);
            Assign(u, o, e, trig, depth) ==
              Ok(Ui(u.scene.(objects := u.scene.objects[o := p.(v := v, isDirty := true)]), false))
  {
    var u0 := Ui(EditObject(u.scene, o, e), false);
    SphericalCallbackConverts(u0, o, trig, depth - 1);
    ConvertingHooks(u0, o, SphericalCallback, trig, depth - 1);
    SphericalHooks(FieldOf(e));
    var p := Apply(u.scene.objects[o], e);
    var v := Kinematics.SphericalToCartesian(Kinematics.Spherical(p.radius, p.incline, p.azimuth), trig);
    var q := p.(v := v, isDirty := true);
    assert u0.scene.objects[o] == p;
    assert u0.scene.objects[o := q] == u.scene.objects[o := q];
    assert u0.scene.(objects := u0.scene.objects[o := q]) == u.scene.(objects := u.scene.objects[o := q]);
  }
}

=== FILE: vectors.dfy ===
/** Three-component vectors over `real`, standing in for `mathutils.Vector`.
    Floating point is not modelled: every coordinate is an exact real. */
module Vectors {

  datatype Vec3 = Vec3(x: real, y: real, z: real)

  const Zero := Vec3(0.0, 0.0, 0.0)

  function Add(a: Vec3, b: Vec3): Vec3 {
    Vec3(a.x + b.x, a.y + b.y, a.z + b.z)
  }

  function Sub(a: Vec3, b: Vec3): Vec3 {
    Vec3(a.x - b.x, a.y - b.y, a.z - b.z)
  }

  function Scale(k: real, a: Vec3): Vec3 {
    Vec3(k * a.x, k * a.y, k * a.z)
  }

  /** Squared Euclidean distance; `distance_between_points` is its square root. */
  function DistSq(a: Vec3, b: Vec3): real {
    (b.x - a.x) * (b.x - a.x) + (b.y - a.y) * (b.y - a.y) + (b.z - a.z) * (b.z - a.z)
  }

  /** Squared Euclidean norm. */
  function NormSq(a: Vec3): real {
    a.x * a.x + a.y * a.y + a.z * a.z
  }
}

=== FILE: wrappers.dfy ===
/** Failure-compatible wrappers shared by the whole model: `Option` for the
    add-on's `None`-or-value results and `Result` for the Python exceptions a
    code path can raise. */
module Wrappers {

  datatype Option<+T> = None | Some(value: T)

  datatype Result<+T, +E> = Ok(value: T) | Err(error: E) {
    predicate IsFailure() {
      Err?
    }

    function PropagateFailure<U>(): Result<U, E>
      requires Err?
    {
      Err(error)
    }

    function Extract(): T
      requires Ok?
    {
      value
    }
  }
}
